=== FILE: README.md ===
# Attach web-view session manager, modelled in Dafny

This project models `InlineBots::AttachWebView` from Telegram Desktop's
`inline_bots/bot_attach_web_view.cpp`. The manager opens a bot's web-view panel
for a chat, keeps it alive, and keeps the cached attach-menu bot list. It also
runs the add-to-menu and remove-from-menu flows.

The model is a pure state machine over an explicit `World`:

- `managers`: every manager instance, field for field (`_peer`, `_bot`,
  `_botUsername`, `_startCommand`, the four call slots, the add-to-menu fields,
  `_attachBots`, `_botsHash`, the panel).
- `active`: the process-wide `ActiveWebViews()` set.
- `calls`: remote calls in flight. Each has a fresh non-zero handle, its owner
  and its parameters. A cancelled call is removed, so its reply can never
  arrive.
- `prompts`: confirmation boxes on screen.
- `env`: what the manager reads from outside. That is the loaded users, the
  local username directory, the trust store and whether a window is active.
- `events`: toasts, panel activations and list-update notifications.

Each entry point, reply, timer tick, confirmation, dismissal, panel close and
destructor call is a transition. A transition returns `Abort(TargetMissing)`
exactly where the C++ dereferences a null `_peer` or `_bot`, reads the bot
info of a user that is not a bot, or fails an `Expects`.

Files:

- `base.dfy`: users, peers, `asUser`, and username case folding.
- `attach_menu.dfy`: `ResolveIcon`, `ParseAttachBot`, and the attach-menu list
  rebuilt from a full reply, with a reference definition (`Visible`).
- `session.dfy`: every `AttachWebView` member and every reply callback.
- `registry.dfy`: the world invariant and its preservation by every input.
  It also holds `ClearAll`, a loop proved to drain the registry.
- `properties.dfy`: properties across several transitions, and a worked
  scenario.

These code quirks are kept as written:

- The username path resolves and then goes through `requestAddToMenu`. It never
  issues a web-view request directly.
- `resolveUsername` reuses the `_requestId` slot.
- A prolong tick does not wait for the previous prolong call's outcome; it
  cancels that call and issues a new one.
- A tick with a panel open but a null `_bot` or `_peer` dereferences the null
  pointer. This is reachable: an orphaned username-resolution reply that names
  a chat sets `_bot` to null while the panel stays open.
  There is no failure handler, so `_prolongId` stays set after a failure.
- The untracked toggle call zeroes `_requestId` on success without cancelling
  that call.
- An add-to-menu reply for another user than the pending bot is ignored.
- The add-to-menu `open` continuation re-enters `request(nullptr, …)`, so it
  skips consent.
- `sendData` acts only when `_peer == _bot` and `queryId == 0`, and then cancels.
- `request(controller, peer, bot, button)` on the current target with a panel
  open activates the panel and then restarts the session anyway.
- Accepting the consent box marks the *current* `_bot` as trusted. That is a
  null dereference if the session was cancelled meanwhile.

## Model

| member | source | states |
|---|---|---|
| Base.AsUser | Telegram/SourceFiles/inline_bots/bot_attach_web_view.cpp:503-509 | a resolved peer yields a user exactly when it is a user (and then that user); otherwise `_bot` becomes null |
| Base.Lower | Telegram/SourceFiles/inline_bots/bot_attach_web_view.cpp:313-316 | folding keeps the length, leaves no upper-case ASCII letter, turns each upper-case letter into its lower-case partner and keeps every other character |
| Base.LowerIdempotent | Telegram/SourceFiles/inline_bots/bot_attach_web_view.cpp:315 | folding an already folded name changes nothing |
| Base.SameUsernameIgnoresCase | Telegram/SourceFiles/inline_bots/bot_attach_web_view.cpp:313-316 | two usernames match iff they have the same length and agree at every position up to the case of an ASCII letter |
| AttachMenu.ResolveIcon | Telegram/SourceFiles/inline_bots/bot_attach_web_view.cpp:55-72 | no icon exactly when no entry is named `default_static`; otherwise the document of the first such entry |
| AttachMenu.ParseAttachBot | Telegram/SourceFiles/inline_bots/bot_attach_web_view.cpp:74-94 | an entry is accepted iff its user is loaded, is a bot and supports the attach menu; the result carries that user, the short name, the inactive flag and the resolved icon |
| AttachMenu.VisibleAppend | Telegram/SourceFiles/inline_bots/bot_attach_web_view.cpp:407-419 | the rebuilt list of a concatenated server list is the concatenation of the two lists: server order is kept |
| AttachMenu.VisibleMembers | Telegram/SourceFiles/inline_bots/bot_attach_web_view.cpp:409-418 | a bot is in the rebuilt list iff some server entry parses to it and is not inactive |
| AttachMenu.VisibleWellFormed | Telegram/SourceFiles/inline_bots/bot_attach_web_view.cpp:409-418 | every listed bot is a loaded attach-menu bot that is not inactive; the list is never longer than the server's |
| AttachMenu.RebuildAttachBots | Telegram/SourceFiles/inline_bots/bot_attach_web_view.cpp:407-419 | the clear-then-append loop yields exactly the reference list of shown entries in server order |
| Session.Cancel | Telegram/SourceFiles/inline_bots/bot_attach_web_view.cpp:385-393 | the instance leaves the registry; the primary and prolong calls are cancelled (their handles are no longer live) and zeroed; panel, peer, bot, username and start command are cleared; the bot list and add-to-menu state and every other instance are untouched |
| Session.Destroy | Telegram/SourceFiles/inline_bots/bot_attach_web_view.cpp:302-304 | the instance leaves the registry and disappears with exactly its own calls and prompts; every other instance, call and prompt keeps its value |
| Session.RequestBots | Telegram/SourceFiles/inline_bots/bot_attach_web_view.cpp:395-400 | while a refresh is in flight nothing happens; otherwise exactly one `getAttachMenuBots` call carrying the local hash, under a fresh handle held in the bots slot |
| Session.OnBotsReply | Telegram/SourceFiles/inline_bots/bot_attach_web_view.cpp:401-424 | every reply clears the bots slot; not-modified and failure keep list, hash and events; a full reply takes the hash, loads its users, sets the list to the reference list over them and fires exactly one update |
| Session.RequestFlags | Telegram/SourceFiles/inline_bots/bot_attach_web_view.cpp:360-363 | theme params always; the url flag iff the url is non-empty; the start-param flag iff the start command is non-empty; never the menu flag |
| Session.RequestWithButtonStep | Telegram/SourceFiles/inline_bots/bot_attach_web_view.cpp:355-371 | faults iff peer or bot is null; otherwise remembers the start command and issues exactly one `requestWebView` for the current peer and bot into the primary slot |
| Session.RequestSimpleStep | Telegram/SourceFiles/inline_bots/bot_attach_web_view.cpp:557-563 | faults iff the bot is null; otherwise exactly one `requestSimpleWebView` with theme params into the primary slot |
| Session.RequestFromMenuStep | Telegram/SourceFiles/inline_bots/bot_attach_web_view.cpp:583-594 | faults iff the bot is null; otherwise exactly one `requestWebView` from the bot's own chat with the captured url and the theme, url and from-menu flags |
| Session.OnWebViewReply | Telegram/SourceFiles/inline_bots/bot_attach_web_view.cpp:372-382 | any reply clears the primary slot; a url shows the panel with the reply's query id; a `BOT_INVALID` failure of `requestWebView` triggers a list refresh, other failures do nothing more |
| Session.RunContinuation | Telegram/SourceFiles/inline_bots/bot_attach_web_view.cpp:355-383 | each continuation faults iff its target is null; otherwise it issues exactly one call of its own kind (web view with the button's url and start parameter, simple web view, or from-menu web view in the bot's chat) into the primary slot, stores the button's start command only for the button continuation, and changes nothing else |
| Session.ConfirmOpen | Telegram/SourceFiles/inline_bots/bot_attach_web_view.cpp:609-633 | nothing without a bot; a verified or trusted bot issues its call at once with no prompt and no trust written; otherwise only one consent prompt appears and no call is issued or trust written |
| Session.Retarget | Telegram/SourceFiles/inline_bots/bot_attach_web_view.cpp:342-345 | the old primary and prolong calls are cancelled and zeroed; panel, username and start command are cleared; the instance leaves the registry and aims at the given peer and bot; the bot list, add-to-menu state and every other instance are untouched |
| Session.RestartFor | Telegram/SourceFiles/inline_bots/bot_attach_web_view.cpp:342-352 | the restart never faults, never writes trust, emits nothing and aims at the new peer and bot; without a controller, or for a trusted bot, it replaces the cancelled calls with exactly one `requestWebView` carrying the button's url, start command and flags, and shows no prompt |
| Session.OpenByBot | Telegram/SourceFiles/inline_bots/bot_attach_web_view.cpp:330-353 | a request in flight for the same peer and bot, with no panel, is left alone and nothing changes; on the same target with a panel open, the panel is activated and the session still restarts; otherwise the session ends aimed at the peer and bot, never faulting, with no trust written; without a controller no prompt appears, and with one a trusted bot gets exactly one `requestWebView` in place of the cancelled calls and no prompt |
| Session.OpenSimple | Telegram/SourceFiles/inline_bots/bot_attach_web_view.cpp:545-555 | the session restarts in the bot's own chat; a trusted bot gets exactly one `requestSimpleWebView` in place of the cancelled calls, an untrusted one only a consent prompt and no call |
| Session.OpenMenu | Telegram/SourceFiles/inline_bots/bot_attach_web_view.cpp:575-607 | faults iff the user is not a bot (its bot info is read); otherwise the session restarts in the bot's own chat and a trusted bot gets exactly one from-menu `requestWebView` with the menu button's url and text, an untrusted one only a consent prompt |
| Session.Show | Telegram/SourceFiles/inline_bots/bot_attach_web_view.cpp:641-693 | faults iff peer or bot is null; otherwise the instance joins the registry and holds a panel for the query id, url and button text, and nothing else changes |
| Session.RequestAddToMenu | Telegram/SourceFiles/inline_bots/bot_attach_web_view.cpp:427-447 | a non-bot or a bot without attach-menu support yields only the not-supported toast; the same pending bot issues no call; otherwise the pending call is cancelled and exactly one `getAttachMenuBot` is issued for the new bot |
| Session.RunOpen | Telegram/SourceFiles/inline_bots/bot_attach_web_view.cpp:453-462 | without a peer nothing happens; with one the session aims at that peer and bot, with no prompt, no trust written and no fault |
| Session.OnMenuBotReply | Telegram/SourceFiles/inline_bots/bot_attach_web_view.cpp:448-490 | a failure clears the add-to-menu fields and shows the not-supported toast; a reply that does not parse, or names another user than the pending bot, does nothing more; an inactive bot gets the add-to-menu prompt when a window is active and no call; an active bot has a list refresh issued or in flight, then opens for the given peer or, without one, shows "already added" |
| Session.RemoveFromMenu | Telegram/SourceFiles/inline_bots/bot_attach_web_view.cpp:493-499 | issues exactly one disabling toggle call that no slot tracks; no manager changes |
| Session.OnToggleReply | Telegram/SourceFiles/inline_bots/bot_attach_web_view.cpp:747-763 | a failure cancels the session; success zeroes the primary slot and refreshes the list; after removal no live call is removed and the removed toast shows; after adding, the session opens for the given peer and the "added" toast comes last |
| Session.OnResolved | Telegram/SourceFiles/inline_bots/bot_attach_web_view.cpp:501-511 | the resolved peer becomes the bot (null for a chat); a chat or a non-attach-menu user yields only the not-supported toast and no call; an attach-menu bot goes through add-to-menu with the session's peer and start command, issuing exactly one `getAttachMenuBot` when none is pending |
| Session.Resolve | Telegram/SourceFiles/inline_bots/bot_attach_web_view.cpp:514-523 | faults iff the peer is null; a username missing from the directory cancels the primary slot and puts exactly one `resolveUsername` call in it |
| Session.OpenByUsername | Telegram/SourceFiles/inline_bots/bot_attach_web_view.cpp:306-328 | an empty username changes nothing; the same peer, a case-insensitively equal username and the same start command issue nothing and cancel nothing, and only activate an open panel |
| Session.OnResolveReply | Telegram/SourceFiles/inline_bots/bot_attach_web_view.cpp:524-542 | a failure clears the primary slot and reports the username only for code 400; a resolved peer faults iff the session's peer is null, otherwise clears the slot, loads the users and makes the peer the bot; an attach-menu bot then gets exactly one `getAttachMenuBot` for the session's peer |
| Session.Tick | Telegram/SourceFiles/inline_bots/bot_attach_web_view.cpp:705-720 | without a panel nothing happens; it faults iff a panel is open while the peer or bot is null; otherwise the previous prolong call is cancelled and exactly one `prolongWebView` for the panel's query id is issued into the prolong slot |
| Session.OnProlongReply | Telegram/SourceFiles/inline_bots/bot_attach_web_view.cpp:711-719 | success clears the prolong slot and nothing else; a failure leaves the world unchanged |
| Session.ResultSent | Telegram/SourceFiles/inline_bots/bot_attach_web_view.cpp:698-703 | a result for the panel's query id tears the session down (out of the registry, slots cancelled); any other query id changes nothing |
| Session.SendData | Telegram/SourceFiles/inline_bots/bot_attach_web_view.cpp:650-664 | nothing happens unless the panel is in the bot's own chat with query id 0; then one `sendWebViewData` goes out and the session is torn down |
| Session.ConfirmConsent | Telegram/SourceFiles/inline_bots/bot_attach_web_view.cpp:619-623 | accepting consent closes the box, marks the bot the session holds NOW as trusted and issues exactly one call into the primary slot, leaving the other calls alone; it faults with no bot, or with no peer for the button continuation |
| Session.ConfirmAddToMenu | Telegram/SourceFiles/inline_bots/bot_attach_web_view.cpp:726-736 | accepting add-to-menu closes the box and issues exactly one enabling toggle carrying the `open` continuation and the "added" toast, changing no manager, registry entry or trust |
| Session.Dismiss | Telegram/SourceFiles/inline_bots/bot_attach_web_view.cpp:624-632 | dismissing a box closes it and changes no call, manager or trust |
| Registry.ApplyPreservesInv | Telegram/SourceFiles/inline_bots/bot_attach_web_view.cpp:298-763 | every input keeps the world well formed: live handles are issued and non-zero with living owners; the registry holds exactly the instances showing a panel; a bot or panel always comes with a peer |
| Registry.ClearAll | Telegram/SourceFiles/inline_bots/bot_attach_web_view.cpp:635-639 | the loop ends with the registry empty; every formerly registered instance is torn down with its primary and prolong calls cancelled; no other instance, call or prompt changes |
| Properties.FreshIsUnused | Telegram/SourceFiles/inline_bots/bot_attach_web_view.cpp:364 | in a well-formed world a newly issued handle clashes with no live call, prompt or slot |
| Properties.CancelIdempotent | Telegram/SourceFiles/inline_bots/bot_attach_web_view.cpp:385-393 | cancelling twice is cancelling once |
| Properties.RequestBotsSingleFlight | Telegram/SourceFiles/inline_bots/bot_attach_web_view.cpp:395-398 | refreshing twice is refreshing once |
| Properties.CancelledCallsStayDead | Telegram/SourceFiles/inline_bots/bot_attach_web_view.cpp:386-388 | after `cancel()` the old primary and prolong handles can never deliver a reply, no call is added and the world stays well formed |
| Properties.AddToMenuReplacesPending | Telegram/SourceFiles/inline_bots/bot_attach_web_view.cpp:439-447 | a pending request for another bot is cancelled and exactly one new, distinct live call for the new bot replaces it |
| Properties.AddToMenuSameBotKeepsCall | Telegram/SourceFiles/inline_bots/bot_attach_web_view.cpp:437-442 | for the pending bot no call is issued, but the new peer and start command are taken |
| Properties.ConsentGatesRequest | Telegram/SourceFiles/inline_bots/bot_attach_web_view.cpp:330-353 | opening an untrusted bot through a controller issues no web-view call, writes no trust and shows one consent prompt for the new target |
| Properties.ConfirmTrustsThenRequests | Telegram/SourceFiles/inline_bots/bot_attach_web_view.cpp:619-623 | accepting consent marks the bot trusted and issues exactly one `requestWebView` under a handle that was not live |
| Properties.AddToMenuOpenSkipsConsent | Telegram/SourceFiles/inline_bots/bot_attach_web_view.cpp:453-462 | the add-to-menu `open` continuation issues a web-view request at once, with no prompt and no trust written, even for an untrusted bot |
| Properties.UsernameGoesThroughAddToMenu | Telegram/SourceFiles/inline_bots/bot_attach_web_view.cpp:501-511 | a username found locally as an attach-menu bot issues exactly one `getAttachMenuBot` call, never a web-view request |
| Properties.ResolveAddsOnlyFresh | Telegram/SourceFiles/inline_bots/bot_attach_web_view.cpp:501-523 | resolving adds at most the call under the fresh handle and leaves the registry alone |
| Properties.UsernameRestartCancels | Telegram/SourceFiles/inline_bots/bot_attach_web_view.cpp:322-327 | a new username target cancels the primary and prolong calls in flight, and the instance leaves the registry |
| Properties.EntryPointsNeverAbort | Telegram/SourceFiles/inline_bots/bot_attach_web_view.cpp:306-353 | the opening entry points never fault, the menu one given a bot: each sets the target it then uses |
| Properties.SendDataNeverAbortsWhenWellFormed | Telegram/SourceFiles/inline_bots/bot_attach_web_view.cpp:650-664 | in a well-formed world `sendData` never faults |
| Properties.ConfirmAfterCancelAborts | Telegram/SourceFiles/inline_bots/bot_attach_web_view.cpp:619-620 | a consent box accepted after its session was cancelled dereferences the null bot |
| Properties.ToggleOrphansPrimaryCall | Telegram/SourceFiles/inline_bots/bot_attach_web_view.cpp:754-755 | a successful toggle zeroes the primary slot while its web-view call stays live, so a later `cancel()` cannot cancel it |
| Properties.OrphanedReplyAborts | Telegram/SourceFiles/inline_bots/bot_attach_web_view.cpp:372-376 | the orphaned web-view call's url reply after the session is gone reaches `show` with a null target and faults |
| Properties.OpenUntrustedBotScenario | Telegram/SourceFiles/inline_bots/bot_attach_web_view.cpp:330-383 | `alice_bot` in chat 42: consent prompt, then one `requestWebView` without start parameter, then the panel for query 7 in the registry, then a tick prolongs query 7 |
| Properties.BotsReplyKeepsCacheUnlessFull | Telegram/SourceFiles/inline_bots/bot_attach_web_view.cpp:401-403 | a not-modified or failed refresh keeps list and hash, fires no update and clears the slot |
| Properties.BotsReplyReplacesList | Telegram/SourceFiles/inline_bots/bot_attach_web_view.cpp:404-420 | a full refresh sets the hash; the list holds exactly the shown entries, none inactive; one update fires |

The lemmas in `registry.dfy` named `…Inv` prove the invariant for one
transition each. `ApplyPreservesInv` combines them. `ClearStep`, `HasFront`
and the other small lemmas there are proof helpers.

## Left out

- `BotAction` and `MakeAttachBotsMenu`: Qt widget painting, icon
  rasterisation, ripples and context menus.
- The web-view panel itself is an opaque present/absent value with its query
  id, url and button text. Left out with it: `handleLocalUri` (it needs the
  URL converter and click handler, which are not part of this model), the
  title and username streams, theme-params JSON, and `requestActivate`, which
  is modelled only as a `PanelActivated` event.
- MTP serialisation and transport, `processChats`, and icon download and
  caching (`createMediaView`, `save`, `forceToCache`). `processUsers` is
  modelled as merging the reply's users into the loaded users.
- Real timers and the `crl::on_main`/`crl::guard` thread hops. A timer period
  is a `TimerTick` input, and closing the panel is a `PanelClosed` input.
- Toast and confirm-box rendering are emitted events and prompts.
  `controller->hideLayer()` is not modelled.
- `base::RandomValue`, the reply-to message id and `_confirmAddBox` are not
  modelled. A confirm box is a prompt whose acceptance is the `Confirmed`
  input.
- `confirmAddToMenu` without an active window shows nothing. It is modelled
  through the environment's `hasActiveWindow` flag.
- Base.Lower: folds ASCII letters only, because Qt's `toLower` is full Unicode
  case folding, which is not modelled.
- Session.ResultSent: the result-sent signal of the data session is delivered
  per instance as `ResultSentFor`, not broadcast, because each subscriber
  filters by its own query id anyway.
- Session.Destroy: the destructor only leaves the registry, so its calls and
  boxes stay pending with callbacks that use the destroyed object; the model
  drops them instead of modelling a use-after-free.
- Pointers to users and peers are compared by identifier. Users are immutable
  snapshots, so a user's fields changing while a session holds it is not
  modelled.
- Integer widths: query ids, hashes and handles are unbounded; the 64-bit
  query id and hash never wrap in the code paths modelled.

=== FILE: attach_menu.dfy ===
/** The attach-menu bot list: the server's entries, the eligibility filter
    that turns them into menu bots, and the icon each bot is drawn with. */
module AttachMenu {
  import opened Base

  /** Name of the icon variant the menu draws. */
  const DefaultStaticIcon: string := "default_static"

  /** One named icon variant of an attach-menu entry. */
  datatype BotIcon = BotIcon(name: string, document: DocId)

  /** One `attachMenuBot` entry as the server sends it. */
  datatype MenuBotData = MenuBotData(
    botId: PeerId,
    shortName: string,
    inactive: bool,
    icons: seq<BotIcon>)

  /** A bot of the local attach-menu list. */
  datatype AttachWebViewBot = AttachWebViewBot(
    user: User,
    icon: Option<DocId>,
    name: string,
    inactive: bool)

  /** The icon variant is the one the menu draws. */
  predicate IsDefaultIcon(icon: BotIcon) {
    icon.name == DefaultStaticIcon
  }

  /** The document of the first `default_static` icon, if any. */
  function ResolveIcon(icons: seq<BotIcon>): (r: Option<DocId>)
    ensures r.None? <==> forall i :: 0 <= i < |icons| ==> !IsDefaultIcon(icons[i])
    ensures r.Some? ==>
      exists i :: 0 <= i < |icons| && IsDefaultIcon(icons[i]) && icons[i].document == r.value
        && forall j :: 0 <= j < i ==> !IsDefaultIcon(icons[j])
  {
    if |icons| == 0 then None
    else if IsDefaultIcon(icons[0]) then Some(icons[0].document)
    else
      var r := ResolveIcon(icons[1..]);
      assert forall i :: 1 <= i < |icons| ==> icons[i] == icons[1..][i - 1];
      assert r.Some? ==>
        exists i :: 1 <= i < |icons| && IsDefaultIcon(icons[i]) && icons[i].document == r.value
          && forall j :: 0 <= j < i ==> !IsDefaultIcon(icons[j]);
      r
  }

  /** The user an entry names is loaded, is a bot and supports the attach menu. */
  predicate Eligible(users: map<PeerId, User>, data: MenuBotData) {
    data.botId in users
    && users[data.botId].isBot
    && users[data.botId].supportsAttachMenu
  }

  /** Turns a server entry into a menu bot; entries whose user is not loaded
      or not an attach-menu bot are refused. */
  function ParseAttachBot(users: map<PeerId, User>, data: MenuBotData): (r: Option<AttachWebViewBot>)
    ensures r.Some? <==> Eligible(users, data)
    ensures r.Some? ==> r.value.user == users[data.botId]
    ensures r.Some? ==> r.value.user.isBot && r.value.user.supportsAttachMenu
    ensures r.Some? ==> r.value.name == data.shortName && r.value.inactive == data.inactive
    ensures r.Some? ==> r.value.icon == ResolveIcon(data.icons)
  {
    if data.botId in users && users[data.botId].isBot && users[data.botId].supportsAttachMenu then
      Some(AttachWebViewBot(users[data.botId], ResolveIcon(data.icons), data.shortName, data.inactive))
    else
      None
  }

  /** The entry is parsed and shown: eligible and not inactive. */
  predicate Shown(users: map<PeerId, User>, data: MenuBotData) {
    var p := ParseAttachBot(users, data);
    p.Some? && !p.value.inactive
  }

  /** Reference definition of the menu list built from a full reply: the
      shown entries, parsed, in server order. */
  function Visible(users: map<PeerId, User>, bots: seq<MenuBotData>): seq<AttachWebViewBot>
  {
    if |bots| == 0 then []
    else
      (if Shown(users, bots[0]) then [ParseAttachBot(users, bots[0]).value] else [])
      + Visible(users, bots[1..])
  }

  /** The list distributes over concatenation of the server list: entries keep
      their relative server order. */
  lemma {:induction false} VisibleAppend(users: map<PeerId, User>, a: seq<MenuBotData>, b: seq<MenuBotData>)
    ensures Visible(users, a + b) == Visible(users, a) + Visible(users, b)
    decreases |a|
  {
    if |a| == 0 {
      assert a + b == b;
    } else {
      var head := if Shown(users, a[0]) then [ParseAttachBot(users, a[0]).value] else [];
      assert (a + b)[0] == a[0];
      assert (a + b)[1..] == a[1..] + b;
      assert Visible(users, a + b) == head + Visible(users, a[1..] + b);
      assert Visible(users, a) == head + Visible(users, a[1..]);
      VisibleAppend(users, a[1..], b);
    }
  }

  /** A menu bot is in the list exactly when some server entry is shown and
      parses to it. */
  lemma {:induction false} VisibleMembers(users: map<PeerId, User>, bots: seq<MenuBotData>, x: AttachWebViewBot)
    ensures x in Visible(users, bots) <==>
      exists i :: 0 <= i < |bots| && Shown(users, bots[i]) && ParseAttachBot(users, bots[i]).value == x
    decreases |bots|
  {
    if |bots| > 0 {
      VisibleMembers(users, bots[1..], x);
      assert forall i :: 1 <= i < |bots| ==> bots[i] == bots[1..][i - 1];
      if x in Visible(users, bots[1..]) {
        var i :| 0 <= i < |bots[1..]| && Shown(users, bots[1..][i]) && ParseAttachBot(users, bots[1..][i]).value == x;
        assert bots[i + 1] == bots[1..][i];
      }
    }
  }

  /** Every listed bot is a loaded attach-menu bot that is not inactive, and
      the list is never longer than the server's. */
  lemma {:induction false} VisibleWellFormed(users: map<PeerId, User>, bots: seq<MenuBotData>)
    ensures |Visible(users, bots)| <= |bots|
    ensures forall k :: 0 <= k < |Visible(users, bots)| ==>
      var b := Visible(users, bots)[k];
      !b.inactive && b.user.isBot && b.user.supportsAttachMenu
    decreases |bots|
  {
    if |bots| > 0 {
      VisibleWellFormed(users, bots[1..]);
    }
  }

  /** The list rebuilt the way the reply handler does it: clear, then append
      each shown entry in server order. */
  method RebuildAttachBots(users: map<PeerId, User>, bots: seq<MenuBotData>) returns (list: seq<AttachWebViewBot>)
    ensures list == Visible(users, bots)
  {
    list := [];
    var i := 0;
    while i < |bots|
      invariant 0 <= i <= |bots|
      invariant list == Visible(users, bots[..i])
    {
      var parsed := ParseAttachBot(users, bots[i]);
      if parsed.Some? && !parsed.value.inactive {
        list := list + [parsed.value];
      }
      assert bots[..i + 1] == bots[..i] + [bots[i]];
      VisibleAppend(users, bots[..i], [bots[i]]);
      i := i + 1;
    }
    assert bots[..i] == bots;
  }
}

=== FILE: base.dfy ===
/** Shared vocabulary of the attach web-view model: optional values, users and
    peers as the data session hands them out, and the case folding used to
    compare bot usernames. */
module Base {

  /** The conventional Some/None datatype, standing in for a nullable pointer. */
  datatype Option<+T> = None | Some(value: T)

  /** Peer and user identifiers share one namespace, so a user is the peer of
      its own one-to-one chat and `_peer == _bot` is an identifier comparison. */
  type PeerId = nat

  /** Identifier of a document (an attach-menu icon). */
  type DocId = nat

  /** A user as loaded into the data session. Only the fields this core reads
      are kept; `isBot` stands for a non-null `botInfo`. */
  datatype User = User(
    id: PeerId,
    username: string,
    isBot: bool,
    supportsAttachMenu: bool,
    verified: bool,
    menuButtonUrl: string,
    menuButtonText: string)

  /** A peer returned by username resolution: a user or some other chat. */
  datatype Peer = UserPeer(user: User) | ChatPeer(id: PeerId)

  /** `PeerData::asUser()`: the user behind a peer, if it is one. */
  function AsUser(p: Peer): (r: Option<User>)
    ensures r.Some? <==> p.UserPeer?
    ensures r.Some? ==> r.value == p.user
  {
    match p
    case UserPeer(u) => Some(u)
    case ChatPeer(_) => None
  }

  /** Pointer equality of a nullable user slot with a given user. */
  predicate SameUser(slot: Option<User>, u: User) {
    slot.Some? && slot.value.id == u.id
  }

  function LowerChar(c: char): char {
    if 'A' <= c <= 'Z' then (c as int + ('a' as int - 'A' as int)) as char else c
  }

  /** Case folding of a username (ASCII letters only): no upper-case letter
      survives, each upper-case letter becomes its lower-case partner and
      everything else is kept. */
  function Lower(s: string): (r: string)
    ensures |r| == |s|
    ensures forall i :: 0 <= i < |r| ==> !('A' <= r[i] <= 'Z')
    ensures forall i :: 0 <= i < |s| && 'A' <= s[i] <= 'Z' ==> r[i] as int == s[i] as int + 32
    ensures forall i :: 0 <= i < |s| && !('A' <= s[i] <= 'Z') ==> r[i] == s[i]
  {
    seq(|s|, i requires 0 <= i < |s| => LowerChar(s[i]))
  }

  /** Two usernames name the same account when they agree after folding. */
  predicate SameUsername(a: string, b: string) {
    Lower(a) == Lower(b)
  }

  /** The two characters are equal or are the two cases of one ASCII letter. */
  predicate SameLetter(c: char, d: char) {
    || c == d
    || ('A' <= c <= 'Z' && d as int == c as int + 32)
    || ('A' <= d <= 'Z' && c as int == d as int + 32)
  }

  /** Folding twice is folding once. */
  lemma LowerIdempotent(s: string)
    ensures Lower(Lower(s)) == Lower(s)
  {
  }

  /** The username comparison ignores exactly the case of ASCII letters:
      two names match iff they have the same length and agree position by
      position up to the case of a letter. */
  lemma SameUsernameIgnoresCase(a: string, b: string)
    ensures SameUsername(a, b) <==> |a| == |b| && forall i :: 0 <= i < |a| ==> SameLetter(a[i], b[i])
  {
    if |a| == |b| && forall i :: 0 <= i < |a| ==> SameLetter(a[i], b[i]) {
      forall i | 0 <= i < |a|
        ensures Lower(a)[i] == Lower(b)[i]
      {
        assert SameLetter(a[i], b[i]);
      }
    }
    if SameUsername(a, b) {
      forall i | 0 <= i < |a|
        ensures SameLetter(a[i], b[i])
      {
        assert Lower(a)[i] == Lower(b)[i];
      }
    }
  }
}

=== FILE: properties.dfy ===
/** Properties of the session manager that relate several transitions or
    need the world's well-formedness. */
module Properties {
  import opened Base
  import opened AttachMenu
  import opened Session
  import opened Registry

  /** Under the invariant the fresh handle is not in use and differs from
      every slot handle. */
  lemma FreshIsUnused(w: World)
    requires Inv(w)
    ensures Fresh(w) !in w.calls && Fresh(w) !in w.prompts
    ensures forall i :: i in w.managers ==>
      var m := w.managers[i];
      Fresh(w) != m.requestId && Fresh(w) != m.prolongId
      && Fresh(w) != m.botsRequestId && Fresh(w) != m.addToMenuId
  {
    forall i | i in w.managers
      ensures var m := w.managers[i];
        Fresh(w) != m.requestId && Fresh(w) != m.prolongId
        && Fresh(w) != m.botsRequestId && Fresh(w) != m.addToMenuId
    {
      assert ManagerInv(w.managers[i], w.last);
    }
  }

  /** Tearing down twice is tearing down once. */
  lemma CancelIdempotent(w: World, me: InstanceId)
    requires me in w.managers
    ensures Cancel(Cancel(w, me), me) == Cancel(w, me)
  {
  }

  /** A refresh while one is in flight issues nothing, so refreshing twice is
      refreshing once. */
  lemma RequestBotsSingleFlight(w: World, me: InstanceId)
    requires me in w.managers
    ensures RequestBots(RequestBots(w, me), me) == RequestBots(w, me)
  {
  }

  /** A reply to a cancelled session's request cannot arrive: after `cancel()`
      the primary and prolong handles are no longer live, and no new call is
      added. */
  lemma CancelledCallsStayDead(w: World, me: InstanceId)
    requires Inv(w) && me in w.managers
    ensures var m := w.managers[me];
      var r := Cancel(w, me);
      && (m.requestId != 0 ==> m.requestId !in r.calls)
      && (m.prolongId != 0 ==> m.prolongId !in r.calls)
      && r.calls.Keys <= w.calls.Keys
      && me !in r.active && Inv(r)
  {
    CancelInv(w, me);
  }

  /** Add-to-menu for a different bot than the pending one cancels the pending
      call and issues exactly one new, distinct call for the new bot. */
  lemma AddToMenuReplacesPending(w: World, me: InstanceId, peer: Option<PeerId>, bot: User, startCommand: string)
    requires Inv(w) && me in w.managers
    requires bot.isBot && bot.supportsAttachMenu
    requires w.managers[me].addToMenuId != 0 && !SameUser(w.managers[me].addToMenuBot, bot)
    ensures var prev := w.managers[me].addToMenuId;
      var r := RequestAddToMenu(w, me, peer, bot, startCommand);
      && prev !in r.calls
      && r.managers[me].addToMenuId != prev
      && r.managers[me].addToMenuId in r.calls
      && r.calls[r.managers[me].addToMenuId] == Call(me, GetAttachMenuBot(bot.id))
      && r.calls.Keys == w.calls.Keys - {prev} + {r.managers[me].addToMenuId}
  {
    FreshIsUnused(w);
  }

  /** Add-to-menu for the bot already pending issues no call, but takes the new
      peer and start command. */
  lemma AddToMenuSameBotKeepsCall(w: World, me: InstanceId, peer: Option<PeerId>, bot: User, startCommand: string)
    requires me in w.managers
    requires bot.isBot && bot.supportsAttachMenu
    requires w.managers[me].addToMenuId != 0 && SameUser(w.managers[me].addToMenuBot, bot)
    ensures var r := RequestAddToMenu(w, me, peer, bot, startCommand);
      && r.calls == w.calls
      && r.managers[me] == w.managers[me].(addToMenuPeer := peer, addToMenuStartCommand := startCommand)
  {
  }

  /** Opening a bot through a controller when the bot is neither verified nor
      trusted issues no web-view request: the old session is torn down and one
      consent prompt appears. */
  lemma ConsentGatesRequest(w: World, me: InstanceId, peer: PeerId, bot: User, button: Button)
    requires me in w.managers
    requires !Trusted(w.env, bot)
    requires var m := w.managers[me];
      !(m.peer == Some(peer) && SameUser(m.bot, bot) && m.panel.None? && m.requestId != 0)
    ensures var r := OpenByBot(w, me, true, peer, bot, button);
      var m := w.managers[me];
      && r.Next?
      && r.w.calls == w.calls - Slots(m.requestId, m.prolongId)
      && r.w.prompts == w.prompts[Fresh(w) := AllowWebView(me, RequestWithButton(button))]
      && r.w.env.trusted == w.env.trusted
      && r.w.managers[me].peer == Some(peer) && r.w.managers[me].bot == Some(bot)
      && r.w.managers[me].requestId == 0
  {
    var m := w.managers[me];
    var same := m.peer == Some(peer) && SameUser(m.bot, bot);
    var w0 := if same && m.panel.Some? then Emit(w, PanelActivated(me)) else w;
    var w1 := Retarget(w0, me, peer, bot);
    assert w1.managers[me].bot == Some(bot);
    assert w1.calls == w.calls - Slots(m.requestId, m.prolongId);
  }

  /** Accepting the consent prompt marks the session's bot trusted, then issues
      exactly one web-view request for the session's peer and bot with the
      button's start command. */
  lemma ConfirmTrustsThenRequests(w: World, pid: Handle, button: Button)
    requires Inv(w)
    requires pid in w.prompts && w.prompts[pid] == AllowWebView(w.prompts[pid].owner, RequestWithButton(button))
    requires w.prompts[pid].owner in w.managers && w.managers[w.prompts[pid].owner].bot.Some?
    ensures var me := w.prompts[pid].owner;
      var m := w.managers[me];
      var r := Confirm(w, pid);
      && r.Next?
      && r.w.env.trusted == w.env.trusted + {m.bot.value.id}
      && r.w.calls == w.calls[Fresh(w) := Call(me, RequestWebView(m.peer.value, m.bot.value.id,
                                   button.url, button.startCommand,
                                   RequestFlags(button.url, button.startCommand), button.text))]
      && Fresh(w) !in w.calls
      && r.w.managers[me].requestId == Fresh(w)
      && pid !in r.w.prompts
  {
    var me := w.prompts[pid].owner;
    assert ManagerInv(w.managers[me], w.last);
    FreshIsUnused(w);
  }

  /** The add-to-menu `open` continuation re-enters the bot request without a
      controller, so it never asks for consent, even for an untrusted bot. */
  lemma AddToMenuOpenSkipsConsent(w: World, me: InstanceId, open: OpenRequest)
    requires me in w.managers && open.peer.Some?
    requires var m := w.managers[me];
      !(m.peer == Some(open.peer.value) && SameUser(m.bot, open.bot) && m.panel.None? && m.requestId != 0)
    ensures var r := RunOpen(w, me, open);
      && r.Next? && r.w.prompts == w.prompts && r.w.env.trusted == w.env.trusted
      && Fresh(w) in r.w.calls
      && r.w.calls[Fresh(w)].request == RequestWebView(open.peer.value, open.bot.id, "", open.startCommand,
                                                       RequestFlags("", open.startCommand), "")
  {
  }

  /** The username path resolves locally and then goes through add-to-menu:
      for a known attach-menu bot the only call issued is `getAttachMenuBot`,
      never a web-view request. */
  lemma UsernameGoesThroughAddToMenu(w: World, me: InstanceId, peer: PeerId, username: string, startCommand: string)
    requires Inv(w) && me in w.managers
    requires username != "" && username in w.env.directory && w.env.directory[username].UserPeer?
    requires var u := w.env.directory[username].user; u.isBot && u.supportsAttachMenu
    requires var m := w.managers[me];
      !(m.peer == Some(peer) && SameUsername(CurrentUsername(m), username) && m.startCommand == startCommand)
    requires w.managers[me].addToMenuId == 0
    ensures var r := OpenByUsername(w, me, peer, username, startCommand);
      var u := w.env.directory[username].user;
      && r.Next?
      && r.w.calls == (w.calls - Slots(w.managers[me].requestId, w.managers[me].prolongId))[Fresh(w) := Call(me, GetAttachMenuBot(u.id))]
      && r.w.managers[me].bot == Some(u)
      && r.w.managers[me].addToMenuId == Fresh(w)
      && r.w.managers[me].addToMenuPeer == Some(peer)
      && r.w.managers[me].addToMenuStartCommand == startCommand
  {
  }

  /** `resolve()` adds at most one call, under the fresh handle, and leaves
      the set of open panels alone. */
  lemma ResolveAddsOnlyFresh(w: World, me: InstanceId)
    requires me in w.managers
    ensures var r := Resolve(w, me);
      r.Next? ==> r.w.calls.Keys <= w.calls.Keys + {Fresh(w)} && r.w.active == w.active
  {
    var m := w.managers[me];
    if m.peer.Some? && m.botUsername in w.env.directory {
      var p := w.env.directory[m.botUsername];
      var w1 := Put(w, me, m.(bot := AsUser(p)));
      assert Fresh(w1) == Fresh(w);
    }
  }

  /** A different username target cancels the primary and prolong calls in
      flight; whatever it issues next uses a fresh handle. */
  lemma UsernameRestartCancels(w: World, me: InstanceId, peer: PeerId, username: string, startCommand: string)
    requires Inv(w) && me in w.managers
    requires username != ""
    requires var m := w.managers[me];
      !(m.peer == Some(peer) && SameUsername(CurrentUsername(m), username) && m.startCommand == startCommand)
    ensures var r := OpenByUsername(w, me, peer, username, startCommand);
      var m := w.managers[me];
      && r.Next?
      && (m.requestId != 0 ==> m.requestId !in r.w.calls)
      && (m.prolongId != 0 ==> m.prolongId !in r.w.calls)
      && me !in r.w.active
  {
    var m := w.managers[me];
    assert ManagerInv(m, w.last);
    var w1 := Cancel(w, me);
    var w2 := Put(w1, me, w1.managers[me].(peer := Some(peer), botUsername := username, startCommand := startCommand));
    assert OpenByUsername(w, me, peer, username, startCommand) == Resolve(w2, me);
    ResolveAddsOnlyFresh(w2, me);
    assert Fresh(w2) == Fresh(w);
  }

  /** Entry points never fault: each sets the target it then uses. The menu
      entry point reads the bot info, so it needs a bot. */
  lemma EntryPointsNeverAbort(w: World, input: Input)
    requires Enabled(w, input)
    requires input.UsernameOpen? || input.BotOpen? || input.SimpleOpen? || (input.MenuOpen? && input.bot.isBot)
    ensures Apply(w, input).Next?
  {
  }

  /** In a well-formed world the panel's data channel never faults: a panel
      always has a peer, so `_peer == _bot` can only hold with a bot. */
  lemma SendDataNeverAbortsWhenWellFormed(w: World, me: InstanceId, data: string)
    requires Inv(w) && me in w.managers
    ensures SendData(w, me, data).Next?
  {
    assert ManagerInv(w.managers[me], w.last);
  }

  /** A consent prompt confirmed after its session was torn down dereferences
      the null bot. */
  lemma ConfirmAfterCancelAborts(w: World, pid: Handle)
    requires pid in w.prompts && w.prompts[pid].AllowWebView? && w.prompts[pid].owner in w.managers
    ensures Confirm(Cancel(w, w.prompts[pid].owner), pid) == Abort(TargetMissing)
  {
  }

  /** A successful toggle zeroes the primary slot without cancelling its call,
      so a later `cancel()` leaves that call live. */
  lemma ToggleOrphansPrimaryCall(w: World, h: Handle, me: InstanceId, bot: PeerId)
    requires Inv(w) && me in w.managers
    requires h in w.calls && w.calls[h] == Call(me, ToggleBotInAttachMenu(bot, false, ShowRemoved))
    requires w.managers[me].requestId in w.calls && w.calls[w.managers[me].requestId].request.RequestWebView?
    requires w.managers[me].prolongId != w.managers[me].requestId
    ensures var rid := w.managers[me].requestId;
      var r := Deliver(w, h, Done);
      && r.Next? && r.w.managers[me].requestId == 0
      && rid in Cancel(r.w, me).calls
  {
    var rid := w.managers[me].requestId;
    assert rid != h;
    var w0 := w.(calls := w.calls - {h});
    assert Deliver(w, h, Done) == OnToggleReply(w0, me, ShowRemoved, Done);
  }

  /** The orphaned web-view request still delivers its url after the session
      is gone, and `show` then faults on the null target. */
  lemma OrphanedReplyAborts(w: World, rid: Handle, me: InstanceId, queryId: nat, url: string)
    requires me in w.managers && w.managers[me].peer.None?
    requires rid in w.calls && w.calls[rid].owner == me && w.calls[rid].request.RequestWebView?
    ensures Deliver(w, rid, WebViewResultUrl(queryId, url)) == Abort(TargetMissing)
  {
  }

  // ------------------------------------------------------------ scenario

  const Me: InstanceId := 0
  const AliceBot: User := User(5, "alice_bot", true, true, false, "", "")
  const Chat: PeerId := 42

  /** A world with one idle manager and nothing trusted. */
  const Start: World :=
    World(map[Me := NewManager], {}, map[], map[], 0, Env(map[], map[], {}, true), [])

  /** Opening untrusted `alice_bot` in chat 42 with an empty start command
      asks for consent; accepting issues exactly one web-view request for
      peer 42 and the bot with no start parameter; its url reply opens the
      panel and the first timer tick prolongs query 7. */
  lemma OpenUntrustedBotScenario()
    ensures var s1 := OpenByBot(Start, Me, true, Chat, AliceBot, Button("", "", "Open"));
      && s1.Next? && s1.w.calls == map[] && s1.w.prompts.Keys == {1}
      && var s2 := Confirm(s1.w, 1);
      && s2.Next?
      && s2.w.env.trusted == {AliceBot.id}
      && s2.w.calls == map[2 := Call(Me, RequestWebView(Chat, AliceBot.id, "", "", {ThemeParams}, "Open"))]
      && var s3 := Deliver(s2.w, 2, WebViewResultUrl(7, "https://x"));
      && s3.Next?
      && s3.w.managers[Me].panel == Some(Panel(7, "https://x", "Open"))
      && s3.w.active == {Me}
      && s3.w.calls == map[]
      && var s4 := Tick(s3.w, Me);
      && s4.Next?
      && s4.w.calls == map[3 := Call(Me, ProlongWebView(Chat, AliceBot.id, 7))]
  {
    var s1 := OpenByBot(Start, Me, true, Chat, AliceBot, Button("", "", "Open"));
    assert s1.w.prompts == map[1 := AllowWebView(Me, RequestWithButton(Button("", "", "Open")))];
    var s2 := Confirm(s1.w, 1);
    assert RequestFlags("", "") == {ThemeParams};
    var s3 := Deliver(s2.w, 2, WebViewResultUrl(7, "https://x"));
    assert s3.w.calls == map[];
  }

  /** A not-modified reply or a failure to the list refresh changes neither
      the list nor the hash and fires no update; every reply clears the slot. */
  lemma BotsReplyKeepsCacheUnlessFull(w: World, h: Handle, reply: Reply)
    requires h in w.calls && w.calls[h].owner in w.managers && w.calls[h].request.GetAttachMenuBots?
    requires reply.AttachMenuBotsNotModified? || reply.Error?
    ensures var me := w.calls[h].owner;
      var r := Deliver(w, h, reply);
      && r.Next?
      && r.w.managers[me].attachBots == w.managers[me].attachBots
      && r.w.managers[me].botsHash == w.managers[me].botsHash
      && r.w.managers[me].botsRequestId == 0
      && r.w.events == w.events
  {
  }

  /** A full reply replaces the list with exactly the shown entries, keeps
      server order and fires one update. */
  lemma BotsReplyReplacesList(w: World, h: Handle, hash: int, users: map<PeerId, User>, bots: seq<MenuBotData>)
    requires h in w.calls && w.calls[h].owner in w.managers && w.calls[h].request.GetAttachMenuBots?
    ensures var me := w.calls[h].owner;
      var r := Deliver(w, h, AttachMenuBots(hash, users, bots));
      var loaded := w.env.users + users;
      && r.Next?
      && r.w.managers[me].botsHash == hash
      && r.w.managers[me].botsRequestId == 0
      && (forall x :: x in r.w.managers[me].attachBots <==>
            exists i :: 0 <= i < |bots| && Shown(loaded, bots[i]) && ParseAttachBot(loaded, bots[i]).value == x)
      && (forall k :: 0 <= k < |r.w.managers[me].attachBots| ==> !r.w.managers[me].attachBots[k].inactive)
      && r.w.events == w.events + [AttachBotsUpdated(me)]
  {
    var me := w.calls[h].owner;
    var loaded := w.env.users + users;
    forall x
      ensures x in Visible(loaded, bots) <==>
        exists i :: 0 <= i < |bots| && Shown(loaded, bots[i]) && ParseAttachBot(loaded, bots[i]).value == x
    {
      VisibleMembers(loaded, bots, x);
    }
    VisibleWellFormed(loaded, bots);
  }
}

=== FILE: registry.dfy ===
/** The process-wide view: the well-formedness every reachable world keeps,
    one dispatcher for every input the managers react to, and `ClearAll`,
    which drains the registry of instances showing a panel. */
module Registry {
  import opened Base
  import opened AttachMenu
  import opened Session

  /** Slot handles never run ahead of the handle counter; a target bot comes
      with a peer, and so does a panel. */
  predicate ManagerInv(m: Manager, last: nat) {
    && m.requestId <= last && m.prolongId <= last
    && m.botsRequestId <= last && m.addToMenuId <= last
    && (m.bot.Some? ==> m.peer.Some?)
    && (m.panel.Some? ==> m.peer.Some?)
    && (m.addToMenuId != 0 ==> m.addToMenuBot.Some?)
  }

  /** Well-formed world: every call and prompt has a non-zero handle already
      issued and a living owner, and the registry holds exactly the instances
      that show a panel. */
  predicate Inv(w: World) {
    && (forall h :: h in w.calls ==> 0 < h <= w.last && w.calls[h].owner in w.managers)
    && (forall h :: h in w.prompts ==> 0 < h <= w.last && w.prompts[h].owner in w.managers)
    && (forall i :: i in w.active ==> i in w.managers)
    && (forall i :: i in w.managers ==> (i in w.active <==> w.managers[i].panel.Some?))
    && (forall i :: i in w.managers ==> ManagerInv(w.managers[i], w.last))
  }

  /** Everything the managers react to. */
  datatype Input =
    | Create(me: InstanceId)
    | UsernameOpen(me: InstanceId, peer: PeerId, username: string, startCommand: string)
    | BotOpen(me: InstanceId, hasController: bool, peer: PeerId, bot: User, button: Button)
    | SimpleOpen(me: InstanceId, bot: User, button: Button)
    | MenuOpen(me: InstanceId, bot: User)
    | CancelRequested(me: InstanceId)
    | BotsRequested(me: InstanceId)
    | AddToMenuRequested(me: InstanceId, contextPeer: Option<PeerId>, bot: User, startCommand: string)
    | RemoveRequested(me: InstanceId, bot: User)
    | ReplyArrived(h: Handle, reply: Reply)
    | TimerTick(me: InstanceId)
    | PanelClosed(me: InstanceId)
    | ResultSentFor(me: InstanceId, queryId: nat)
    | DataSent(me: InstanceId, data: string)
    | Confirmed(pid: Handle)
    | Dismissed(pid: Handle)
    | Destroyed(me: InstanceId)

  /** The input can happen: it names a living instance, a call in flight with
      a reply of the right type, or a prompt on screen. */
  predicate Enabled(w: World, input: Input) {
    match input
    case Create(me) => me !in w.managers
    case ReplyArrived(h, reply) =>
      h in w.calls && w.calls[h].owner in w.managers && Fits(w.calls[h].request, reply)
    case Confirmed(pid) => pid in w.prompts && w.prompts[pid].owner in w.managers
    case Dismissed(pid) => pid in w.prompts
    case _ => input.me in w.managers
  }

  function Apply(w: World, input: Input): Step
    requires Enabled(w, input)
  {
    match input
    case Create(me) => Next(Put(w, me, NewManager))
    case UsernameOpen(me, peer, username, startCommand) => OpenByUsername(w, me, peer, username, startCommand)
    case BotOpen(me, hasController, peer, bot, button) => OpenByBot(w, me, hasController, peer, bot, button)
    case SimpleOpen(me, bot, button) => OpenSimple(w, me, bot, button)
    case MenuOpen(me, bot) => OpenMenu(w, me, bot)
    case CancelRequested(me) => Next(Cancel(w, me))
    case BotsRequested(me) => Next(RequestBots(w, me))
    case AddToMenuRequested(me, peer, bot, startCommand) => Next(RequestAddToMenu(w, me, peer, bot, startCommand))
    case RemoveRequested(me, bot) => Next(RemoveFromMenu(w, me, bot))
    case ReplyArrived(h, reply) => Deliver(w, h, reply)
    case TimerTick(me) => Tick(w, me)
    case PanelClosed(me) => Next(Cancel(w, me))
    case ResultSentFor(me, queryId) => Next(ResultSent(w, me, queryId))
    case DataSent(me, data) => SendData(w, me, data)
    case Confirmed(pid) => Confirm(w, pid)
    case Dismissed(pid) => Next(Dismiss(w, pid))
    case Destroyed(me) => Next(Destroy(w, me))
  }

  // ------------------------------------------------------------ invariant

  predicate StepInv(s: Step) {
    s.Next? ==> Inv(s.w)
  }

  lemma IssuePut(w: World, me: InstanceId, request: Request, m: Manager)
    requires Inv(w) && me in w.managers
    requires ManagerInv(m, Fresh(w))
    requires m.panel.Some? <==> w.managers[me].panel.Some?
    ensures Inv(Put(Issue(w, me, request), me, m))
  {
    var r := Put(Issue(w, me, request), me, m);
    forall i | i in r.managers
      ensures ManagerInv(r.managers[i], r.last)
    {
      if i != me {
        assert ManagerInv(w.managers[i], w.last);
      }
    }
  }

  lemma CancelInv(w: World, me: InstanceId)
    requires Inv(w) && me in w.managers
    ensures Inv(Cancel(w, me))
  {
    var r := Cancel(w, me);
    forall i | i in r.managers
      ensures ManagerInv(r.managers[i], r.last)
    {
      assert ManagerInv(w.managers[i], w.last);
    }
  }

  lemma RequestBotsInv(w: World, me: InstanceId)
    requires Inv(w) && me in w.managers
    ensures Inv(RequestBots(w, me))
  {
    if w.managers[me].botsRequestId == 0 {
      var m := w.managers[me];
      IssuePut(w, me, GetAttachMenuBots(m.botsHash), m.(botsRequestId := Fresh(w)));
    }
  }

  lemma RetargetInv(w: World, me: InstanceId, peer: PeerId, bot: User)
    requires Inv(w) && me in w.managers
    ensures Inv(Retarget(w, me, peer, bot))
  {
    var w1 := Cancel(w, me);
    CancelInv(w, me);
    PutInv(w1, me, w1.managers[me].(bot := Some(bot), peer := Some(peer)));
  }

  lemma ContinuationInv(w: World, me: InstanceId, cont: Continuation)
    requires Inv(w) && me in w.managers
    ensures StepInv(RunContinuation(w, me, cont))
  {
    var m := w.managers[me];
    match cont
    case RequestWithButton(button) =>
      if m.peer.Some? && m.bot.Some? {
        IssuePut(w, me, RequestWebView(m.peer.value, m.bot.value.id, button.url, button.startCommand,
                                       RequestFlags(button.url, button.startCommand), button.text),
                 m.(startCommand := button.startCommand, requestId := Fresh(w)));
      }
    case RequestSimple(button) =>
      if m.bot.Some? {
        IssuePut(w, me, RequestSimpleWebView(m.bot.value.id, button.url, {ThemeParams}, button.text),
                 m.(requestId := Fresh(w)));
      }
    case RequestFromMenu(url, text) =>
      if m.bot.Some? {
        var b := m.bot.value.id;
        IssuePut(w, me, RequestWebView(b, b, url, "", {ThemeParams, UrlFlag, FromBotMenu}, text),
                 m.(requestId := Fresh(w)));
      }
  }

  lemma ConfirmOpenInv(w: World, me: InstanceId, cont: Continuation)
    requires Inv(w) && me in w.managers
    ensures StepInv(ConfirmOpen(w, me, cont))
  {
    var m := w.managers[me];
    if m.bot.Some? && Trusted(w.env, m.bot.value) {
      ContinuationInv(w, me, cont);
    } else if m.bot.Some? {
      var r := Ask(w, AllowWebView(me, cont));
      forall i | i in r.managers
        ensures ManagerInv(r.managers[i], r.last)
      {
        assert ManagerInv(w.managers[i], w.last);
      }
    }
  }

  lemma OpenByBotInv(w: World, me: InstanceId, hasController: bool, peer: PeerId, bot: User, button: Button)
    requires Inv(w) && me in w.managers
    ensures StepInv(OpenByBot(w, me, hasController, peer, bot, button))
  {
    var m := w.managers[me];
    var same := m.peer == Some(peer) && SameUser(m.bot, bot);
    if !(same && m.panel.None? && m.requestId != 0) {
      var w0 := if same && m.panel.Some? then Emit(w, PanelActivated(me)) else w;
      assert Inv(w0);
      var w1 := Retarget(w0, me, peer, bot);
      RetargetInv(w0, me, peer, bot);
      if hasController {
        ConfirmOpenInv(w1, me, RequestWithButton(button));
      } else {
        ContinuationInv(w1, me, RequestWithButton(button));
      }
    }
  }

  lemma RequestAddToMenuInv(w: World, me: InstanceId, peer: Option<PeerId>, bot: User, startCommand: string)
    requires Inv(w) && me in w.managers
    ensures Inv(RequestAddToMenu(w, me, peer, bot, startCommand))
  {
    var m := w.managers[me];
    if bot.isBot && bot.supportsAttachMenu {
      var m1 := m.(addToMenuStartCommand := startCommand, addToMenuPeer := peer);
      if m.addToMenuId != 0 && SameUser(m.addToMenuBot, bot) {
        var r := Put(w, me, m1);
        forall i | i in r.managers
          ensures ManagerInv(r.managers[i], r.last)
        {
          assert ManagerInv(w.managers[i], w.last);
        }
      } else {
        var w1 := Drop(w, m.addToMenuId);
        assert Inv(w1);
        IssuePut(w1, me, GetAttachMenuBot(bot.id), m1.(addToMenuBot := Some(bot), addToMenuId := Fresh(w1)));
      }
    }
  }

  lemma OnResolvedInv(w: World, me: InstanceId, peer: Peer)
    requires Inv(w) && me in w.managers && w.managers[me].peer.Some?
    ensures Inv(OnResolved(w, me, peer))
  {
    var m := w.managers[me];
    var w1 := Put(w, me, m.(bot := AsUser(peer)));
    forall i | i in w1.managers
      ensures ManagerInv(w1.managers[i], w1.last)
    {
      assert ManagerInv(w.managers[i], w.last);
    }
    assert Inv(w1);
    if peer.UserPeer? {
      RequestAddToMenuInv(w1, me, m.peer, peer.user, m.startCommand);
    }
  }

  lemma ResolveInv(w: World, me: InstanceId)
    requires Inv(w) && me in w.managers
    ensures StepInv(Resolve(w, me))
  {
    var m := w.managers[me];
    if m.peer.Some? {
      if m.botUsername in w.env.directory {
        OnResolvedInv(w, me, w.env.directory[m.botUsername]);
      } else {
        var w1 := Drop(w, m.requestId);
        assert Inv(w1);
        assert ManagerInv(m, w.last);
        IssuePut(w1, me, ResolveUsername(m.botUsername), m.(requestId := Fresh(w1)));
      }
    }
  }

  lemma OpenByUsernameInv(w: World, me: InstanceId, peer: PeerId, username: string, startCommand: string)
    requires Inv(w) && me in w.managers
    ensures StepInv(OpenByUsername(w, me, peer, username, startCommand))
  {
    var m := w.managers[me];
    if username != "" && !(m.peer == Some(peer) && SameUsername(CurrentUsername(m), username) && m.startCommand == startCommand) {
      var w1 := Cancel(w, me);
      CancelInv(w, me);
      var w2 := Put(w1, me, w1.managers[me].(peer := Some(peer), botUsername := username, startCommand := startCommand));
      PutInv(w1, me, w1.managers[me].(peer := Some(peer), botUsername := username, startCommand := startCommand));
      ResolveInv(w2, me);
    }
  }

  /** Replacing one manager by another that keeps the per-manager part of the
      invariant and its panel keeps the world well-formed. */
  lemma PutInv(w: World, me: InstanceId, m: Manager)
    requires Inv(w) && me in w.managers
    requires ManagerInv(m, w.last)
    requires m.panel.Some? <==> w.managers[me].panel.Some?
    ensures Inv(Put(w, me, m))
  {
    var r := Put(w, me, m);
    forall i | i in r.managers
      ensures ManagerInv(r.managers[i], r.last)
    {
      if i != me {
        assert ManagerInv(w.managers[i], w.last);
      }
    }
  }

  lemma TakeCallInv(w: World, h: Handle)
    requires Inv(w)
    ensures Inv(w.(calls := w.calls - {h}))
  {
  }

  lemma ShowInv(w: World, me: InstanceId, queryId: nat, url: string, text: string)
    requires Inv(w) && me in w.managers
    ensures StepInv(Show(w, me, queryId, url, text))
  {
    var m := w.managers[me];
    if m.peer.Some? && m.bot.Some? {
      var r := Put(w.(active := w.active + {me}), me, m.(panel := Some(Panel(queryId, url, text))));
      forall i | i in r.managers
        ensures ManagerInv(r.managers[i], r.last)
      {
        assert ManagerInv(w.managers[i], w.last);
      }
    }
  }

  lemma OnWebViewReplyInv(w: World, me: InstanceId, request: Request, reply: Reply)
    requires Inv(w) && me in w.managers
    requires request.RequestWebView? || request.RequestSimpleWebView?
    requires Fits(request, reply)
    ensures StepInv(OnWebViewReply(w, me, request, reply))
  {
    var m := w.managers[me];
    assert ManagerInv(m, w.last);
    var w1 := Put(w, me, m.(requestId := 0));
    PutInv(w, me, m.(requestId := 0));
    if reply.Error? {
      RequestBotsInv(w1, me);
    } else {
      ShowInv(w1, me, if reply.WebViewResultUrl? then reply.queryId else 0, reply.url, request.buttonText);
    }
  }

  lemma MenuBotActiveInv(w1: World, me: InstanceId, open: OpenRequest)
    requires Inv(w1) && me in w1.managers
    ensures StepInv(
      var w2 := RequestBots(w1, me);
      if open.peer.Some? then RunOpen(w2, me, open) else Next(Emit(w2, Toast(BotAlreadyAdded))))
  {
    var w2 := RequestBots(w1, me);
    RequestBotsInv(w1, me);
    if open.peer.Some? {
      OpenByBotInv(w2, me, false, open.peer.value, open.bot, Button("", open.startCommand, ""));
    }
  }

  lemma MenuBotInactiveInv(w1: World, me: InstanceId, bot: User, open: OpenRequest)
    requires Inv(w1) && me in w1.managers
    ensures Inv(if w1.env.hasActiveWindow then Ask(w1, AddToMenu(me, bot, open)) else w1)
  {
    if w1.env.hasActiveWindow {
      var r := Ask(w1, AddToMenu(me, bot, open));
      forall i | i in r.managers
        ensures ManagerInv(r.managers[i], r.last)
      {
        assert ManagerInv(w1.managers[i], w1.last);
      }
    }
  }

  lemma OnMenuBotReplyInv(w: World, me: InstanceId, reply: Reply)
    requires Inv(w) && me in w.managers
    requires Fits(GetAttachMenuBot(0), reply)
    ensures StepInv(OnMenuBotReply(w, me, reply))
  {
    var m := w.managers[me];
    assert ManagerInv(m, w.last);
    var cleared := m.(addToMenuId := 0, addToMenuBot := None, addToMenuPeer := None, addToMenuStartCommand := "");
    if reply.AttachMenuBotsBot? {
      var wu := w.(env := w.env.(users := w.env.users + reply.users));
      PutInv(wu, me, cleared);
      var w1 := Put(wu, me, cleared);
      var parsed := ParseAttachBot(w1.env.users, reply.bot);
      if parsed.Some? && SameUser(m.addToMenuBot, parsed.value.user) {
        var open := OpenRequest(m.addToMenuPeer, m.addToMenuBot.value, m.addToMenuStartCommand);
        if parsed.value.inactive {
          MenuBotInactiveInv(w1, me, parsed.value.user, open);
        } else {
          MenuBotActiveInv(w1, me, open);
        }
      }
    } else {
      PutInv(w, me, cleared);
    }
  }

  lemma OnToggleReplyInv(w: World, me: InstanceId, onDone: ToggleDone, reply: Reply)
    requires Inv(w) && me in w.managers
    requires reply.Done? || reply.Error?
    ensures StepInv(OnToggleReply(w, me, onDone, reply))
  {
    if reply.Error? {
      CancelInv(w, me);
    } else {
      var m := w.managers[me];
      assert ManagerInv(m, w.last);
      var w0 := Put(w, me, m.(requestId := 0));
      PutInv(w, me, m.(requestId := 0));
      var w1 := RequestBots(w0, me);
      RequestBotsInv(w0, me);
      if onDone.OpenThenShowAdded? && onDone.open.peer.Some? {
        var o := onDone.open;
        OpenByBotInv(w1, me, false, o.peer.value, o.bot, Button("", o.startCommand, ""));
      }
    }
  }

  lemma OnResolveReplyInv(w: World, me: InstanceId, username: string, reply: Reply)
    requires Inv(w) && me in w.managers
    requires Fits(ResolveUsername(username), reply)
    ensures StepInv(OnResolveReply(w, me, username, reply))
  {
    var m := w.managers[me];
    assert ManagerInv(m, w.last);
    var w1 := Put(w, me, m.(requestId := 0));
    PutInv(w, me, m.(requestId := 0));
    if reply.ResolvedPeer? && m.peer.Some? && reply.peer.Some? {
      var w2 := w1.(env := w1.env.(users := w1.env.users + reply.users));
      OnResolvedInv(w2, me, reply.peer.value);
    }
  }

  lemma OnBotsReplyInv(w: World, me: InstanceId, reply: Reply)
    requires Inv(w) && me in w.managers
    requires Fits(GetAttachMenuBots(0), reply)
    ensures Inv(OnBotsReply(w, me, reply))
  {
    var m := w.managers[me];
    assert ManagerInv(m, w.last);
    if reply.AttachMenuBots? {
      var loaded := w.env.users + reply.users;
      var wu := w.(env := w.env.(users := loaded));
      PutInv(wu, me, m.(botsRequestId := 0, botsHash := reply.hash, attachBots := Visible(loaded, reply.bots)));
    } else {
      PutInv(w, me, m.(botsRequestId := 0));
    }
  }

  lemma OnProlongReplyInv(w: World, me: InstanceId, reply: Reply)
    requires Inv(w) && me in w.managers
    ensures Inv(OnProlongReply(w, me, reply))
  {
    if reply.Done? {
      assert ManagerInv(w.managers[me], w.last);
      PutInv(w, me, w.managers[me].(prolongId := 0));
    }
  }

  /** Replies to the two web-view requests and to username resolution. */
  lemma DeliverPrimaryInv(w: World, h: Handle, reply: Reply)
    requires Inv(w) && h in w.calls && w.calls[h].owner in w.managers
    requires Fits(w.calls[h].request, reply)
    requires w.calls[h].request.RequestWebView? || w.calls[h].request.RequestSimpleWebView?
             || w.calls[h].request.ResolveUsername?
    ensures StepInv(Deliver(w, h, reply))
  {
    var c := w.calls[h];
    var me := c.owner;
    var w0 := w.(calls := w.calls - {h});
    TakeCallInv(w, h);
    match c.request
    case RequestWebView(_, _, _, _, _, _) =>
      assert Deliver(w, h, reply) == OnWebViewReply(w0, me, c.request, reply);
      OnWebViewReplyInv(w0, me, c.request, reply);
    case RequestSimpleWebView(_, _, _, _) =>
      assert Deliver(w, h, reply) == OnWebViewReply(w0, me, c.request, reply);
      OnWebViewReplyInv(w0, me, c.request, reply);
    case ResolveUsername(username) =>
      assert Deliver(w, h, reply) == OnResolveReply(w0, me, username, reply);
      OnResolveReplyInv(w0, me, username, reply);
  }

  /** Replies to the attach-menu calls: the list, one bot, and the toggle. */
  lemma DeliverMenuInv(w: World, h: Handle, reply: Reply)
    requires Inv(w) && h in w.calls && w.calls[h].owner in w.managers
    requires Fits(w.calls[h].request, reply)
    requires w.calls[h].request.GetAttachMenuBots? || w.calls[h].request.GetAttachMenuBot?
             || w.calls[h].request.ToggleBotInAttachMenu?
    ensures StepInv(Deliver(w, h, reply))
  {
    var c := w.calls[h];
    var me := c.owner;
    var w0 := w.(calls := w.calls - {h});
    TakeCallInv(w, h);
    match c.request
    case GetAttachMenuBots(_) =>
      assert Deliver(w, h, reply) == Next(OnBotsReply(w0, me, reply));
      OnBotsReplyInv(w0, me, reply);
    case GetAttachMenuBot(_) =>
      assert Deliver(w, h, reply) == OnMenuBotReply(w0, me, reply);
      OnMenuBotReplyInv(w0, me, reply);
    case ToggleBotInAttachMenu(_, _, onDone) =>
      assert Deliver(w, h, reply) == OnToggleReply(w0, me, onDone, reply);
      OnToggleReplyInv(w0, me, onDone, reply);
  }

  /** Replies to the calls of an open panel: prolonging and sending data. */
  lemma DeliverPanelInv(w: World, h: Handle, reply: Reply)
    requires Inv(w) && h in w.calls && w.calls[h].owner in w.managers
    requires Fits(w.calls[h].request, reply)
    requires w.calls[h].request.ProlongWebView? || w.calls[h].request.SendWebViewData?
    ensures StepInv(Deliver(w, h, reply))
  {
    var c := w.calls[h];
    var me := c.owner;
    var w0 := w.(calls := w.calls - {h});
    TakeCallInv(w, h);
    match c.request
    case ProlongWebView(_, _, _) =>
      assert Deliver(w, h, reply) == Next(OnProlongReply(w0, me, reply));
      OnProlongReplyInv(w0, me, reply);
    case SendWebViewData(_, _, _) =>
      assert Deliver(w, h, reply) == Next(w0);
  }

  lemma DeliverInv(w: World, h: Handle, reply: Reply)
    requires Inv(w) && h in w.calls && w.calls[h].owner in w.managers
    requires Fits(w.calls[h].request, reply)
    ensures StepInv(Deliver(w, h, reply))
  {
    var q := w.calls[h].request;
    if q.RequestWebView? || q.RequestSimpleWebView? || q.ResolveUsername? {
      DeliverPrimaryInv(w, h, reply);
    } else if q.GetAttachMenuBots? || q.GetAttachMenuBot? || q.ToggleBotInAttachMenu? {
      DeliverMenuInv(w, h, reply);
    } else {
      DeliverPanelInv(w, h, reply);
    }
  }

  lemma ConfirmInv(w: World, pid: Handle)
    requires Inv(w) && pid in w.prompts && w.prompts[pid].owner in w.managers
    ensures StepInv(Confirm(w, pid))
  {
    var w0 := w.(prompts := w.prompts - {pid});
    assert Inv(w0);
    match w.prompts[pid]
    case AllowWebView(me, cont) =>
      var m := w.managers[me];
      if m.bot.Some? {
        ContinuationInv(w0.(env := w0.env.(trusted := w0.env.trusted + {m.bot.value.id})), me, cont);
      }
    case AddToMenu(me, bot, open) =>
      var r := Issue(w0, me, ToggleBotInAttachMenu(bot.id, true, OpenThenShowAdded(open)));
      forall i | i in r.managers
        ensures ManagerInv(r.managers[i], r.last)
      {
        assert ManagerInv(w0.managers[i], w0.last);
      }
  }

  lemma CreateInv(w: World, me: InstanceId)
    requires Inv(w) && me !in w.managers
    ensures Inv(Put(w, me, NewManager))
  {
    var r := Put(w, me, NewManager);
    forall i | i in r.managers
      ensures ManagerInv(r.managers[i], r.last)
    {
      if i != me {
        assert ManagerInv(w.managers[i], w.last);
      }
    }
  }

  lemma RemoveInv(w: World, me: InstanceId, bot: User)
    requires Inv(w) && me in w.managers
    ensures Inv(RemoveFromMenu(w, me, bot))
  {
    var r := RemoveFromMenu(w, me, bot);
    forall i | i in r.managers
      ensures ManagerInv(r.managers[i], r.last)
    {
      assert ManagerInv(w.managers[i], w.last);
    }
  }

  lemma TickInv(w: World, me: InstanceId)
    requires Inv(w) && me in w.managers
    ensures StepInv(Tick(w, me))
  {
    var m := w.managers[me];
    if m.panel.Some? && m.peer.Some? && m.bot.Some? {
      var w1 := Drop(w, m.prolongId);
      assert Inv(w1);
      assert ManagerInv(m, w.last);
      IssuePut(w1, me, ProlongWebView(m.peer.value, m.bot.value.id, m.panel.value.queryId),
               m.(prolongId := Fresh(w1)));
    }
  }

  lemma SendDataInv(w: World, me: InstanceId, data: string)
    requires Inv(w) && me in w.managers
    ensures StepInv(SendData(w, me, data))
  {
    var m := w.managers[me];
    if m.panel.Some? && m.bot.Some? {
      var w1 := Issue(w, me, SendWebViewData(m.bot.value.id, m.panel.value.buttonText, data));
      forall i | i in w1.managers
        ensures ManagerInv(w1.managers[i], w1.last)
      {
        assert ManagerInv(w.managers[i], w.last);
      }
      CancelInv(w1, me);
    }
  }

  lemma DismissInv(w: World, pid: Handle)
    requires Inv(w) && pid in w.prompts
    ensures Inv(Dismiss(w, pid))
  {
  }

  lemma DestroyInv(w: World, me: InstanceId)
    requires Inv(w)
    ensures Inv(Destroy(w, me))
  {
    var r := Destroy(w, me);
    forall i | i in r.managers
      ensures ManagerInv(r.managers[i], r.last)
    {
      assert ManagerInv(w.managers[i], w.last);
    }
  }

  /** `requestSimple` keeps the world well formed. */
  lemma OpenSimpleInv(w: World, me: InstanceId, bot: User, button: Button)
    requires Inv(w) && me in w.managers
    ensures StepInv(OpenSimple(w, me, bot, button))
  {
    RetargetInv(w, me, bot.id, bot);
    ConfirmOpenInv(Retarget(w, me, bot.id, bot), me, RequestSimple(button));
  }

  /** `requestMenu` keeps the world well formed, or faults for a non-bot. */
  lemma OpenMenuInv(w: World, me: InstanceId, bot: User)
    requires Inv(w) && me in w.managers
    ensures StepInv(OpenMenu(w, me, bot))
  {
    if bot.isBot {
      RetargetInv(w, me, bot.id, bot);
      ConfirmOpenInv(Retarget(w, me, bot.id, bot), me, RequestFromMenu(bot.menuButtonUrl, bot.menuButtonText));
    }
  }

  /** The entry points keep the world well formed. */
  lemma ApplyEntryInv(w: World, input: Input)
    requires Inv(w) && Enabled(w, input)
    requires input.Create? || input.UsernameOpen? || input.BotOpen? || input.SimpleOpen? || input.MenuOpen? || input.CancelRequested? || input.BotsRequested? || input.AddToMenuRequested? || input.RemoveRequested?
    ensures StepInv(Apply(w, input))
  {
    match input
    case Create(me) =>
      assert Apply(w, input) == Next(Put(w, me, NewManager));
      CreateInv(w, me);
    case UsernameOpen(me, peer, username, startCommand) =>
      assert Apply(w, input) == OpenByUsername(w, me, peer, username, startCommand);
      OpenByUsernameInv(w, me, peer, username, startCommand);
    case BotOpen(me, hasController, peer, bot, button) =>
      assert Apply(w, input) == OpenByBot(w, me, hasController, peer, bot, button);
      OpenByBotInv(w, me, hasController, peer, bot, button);
    case SimpleOpen(me, bot, button) =>
      assert Apply(w, input) == OpenSimple(w, me, bot, button);
      OpenSimpleInv(w, me, bot, button);
    case MenuOpen(me, bot) =>
      assert Apply(w, input) == OpenMenu(w, me, bot);
      OpenMenuInv(w, me, bot);
    case CancelRequested(me) =>
      assert Apply(w, input) == Next(Cancel(w, me));
      CancelInv(w, me);
    case BotsRequested(me) =>
      assert Apply(w, input) == Next(RequestBots(w, me));
      RequestBotsInv(w, me);
    case AddToMenuRequested(me, peer, bot, startCommand) =>
      assert Apply(w, input) == Next(RequestAddToMenu(w, me, peer, bot, startCommand));
      RequestAddToMenuInv(w, me, peer, bot, startCommand);
    case RemoveRequested(me, bot) =>
      assert Apply(w, input) == Next(RemoveFromMenu(w, me, bot));
      RemoveInv(w, me, bot);
    case _ =>
  }

  /** Server replies and prolong timer ticks keep the world well formed. */
  lemma ApplyNetworkInv(w: World, input: Input)
    requires Inv(w) && Enabled(w, input)
    requires input.ReplyArrived? || input.TimerTick?
    ensures StepInv(Apply(w, input))
  {
    match input
    case ReplyArrived(h, reply) =>
      assert Apply(w, input) == Deliver(w, h, reply);
      DeliverInv(w, h, reply);
    case TimerTick(me) =>
      assert Apply(w, input) == Tick(w, me);
      TickInv(w, me);
    case _ =>
  }

  /** Signals from an open panel keep the world well formed. */
  lemma ApplyPanelInv(w: World, input: Input)
    requires Inv(w) && Enabled(w, input)
    requires input.PanelClosed? || input.ResultSentFor? || input.DataSent?
    ensures StepInv(Apply(w, input))
  {
    match input
    case PanelClosed(me) =>
      assert Apply(w, input) == Next(Cancel(w, me));
      CancelInv(w, me);
    case ResultSentFor(me, queryId) =>
      assert Apply(w, input) == Next(ResultSent(w, me, queryId));
      CancelInv(w, me);
    case DataSent(me, data) =>
      assert Apply(w, input) == SendData(w, me, data);
      SendDataInv(w, me, data);
    case _ =>
  }

  /** Answers to confirmation boxes and the destructor keep the world well formed. */
  lemma ApplyPromptInv(w: World, input: Input)
    requires Inv(w) && Enabled(w, input)
    requires input.Confirmed? || input.Dismissed? || input.Destroyed?
    ensures StepInv(Apply(w, input))
  {
    match input
    case Confirmed(pid) =>
      assert Apply(w, input) == Confirm(w, pid);
      ConfirmInv(w, pid);
    case Dismissed(pid) =>
      assert Apply(w, input) == Next(Dismiss(w, pid));
      DismissInv(w, pid);
    case Destroyed(me) =>
      assert Apply(w, input) == Next(Destroy(w, me));
      DestroyInv(w, me);
    case _ =>
  }

  /** Every input keeps the world well formed. */
  lemma ApplyPreservesInv(w: World, input: Input)
    requires Inv(w) && Enabled(w, input)
    ensures Apply(w, input).Next? ==> Inv(Apply(w, input).w)
  {
    match input
    case Create(_) => ApplyEntryInv(w, input);
    case UsernameOpen(_, _, _, _) => ApplyEntryInv(w, input);
    case BotOpen(_, _, _, _, _) => ApplyEntryInv(w, input);
    case SimpleOpen(_, _, _) => ApplyEntryInv(w, input);
    case MenuOpen(_, _) => ApplyEntryInv(w, input);
    case CancelRequested(_) => ApplyEntryInv(w, input);
    case BotsRequested(_) => ApplyEntryInv(w, input);
    case AddToMenuRequested(_, _, _, _) => ApplyEntryInv(w, input);
    case RemoveRequested(_, _) => ApplyEntryInv(w, input);
    case ReplyArrived(_, _) => ApplyNetworkInv(w, input);
    case TimerTick(_) => ApplyNetworkInv(w, input);
    case PanelClosed(_) => ApplyPanelInv(w, input);
    case ResultSentFor(_, _) => ApplyPanelInv(w, input);
    case DataSent(_, _) => ApplyPanelInv(w, input);
    case Confirmed(_) => ApplyPromptInv(w, input);
    case Dismissed(_) => ApplyPromptInv(w, input);
    case Destroyed(_) => ApplyPromptInv(w, input);
  }

  // ------------------------------------------------------------ ClearAll

  /** The manager has been torn down by `cancel()`. */
  predicate Cancelled(m: Manager) {
    m.requestId == 0 && m.prolongId == 0 && m.panel.None? && m.peer.None? && m.bot.None?
  }

  /** The handles held in the primary and prolong slots of the given instances. */
  function SlotsOf(w: World, ids: set<InstanceId>): set<Handle>
    requires ids <= w.managers.Keys
  {
    set i, h | i in ids && h in Slots(w.managers[i].requestId, w.managers[i].prolongId) :: h
  }

  lemma SlotsOfAdd(w: World, done: set<InstanceId>, front: InstanceId)
    requires done <= w.managers.Keys && front in w.managers
    ensures SlotsOf(w, done + {front})
         == SlotsOf(w, done) + Slots(w.managers[front].requestId, w.managers[front].prolongId)
  {
  }

  lemma MapMinusTwice<K, V>(m: map<K, V>, a: set<K>, b: set<K>)
    ensures (m - a) - b == m - (a + b)
  {
  }

  /** A non-empty registry has a front: its least element. */
  lemma {:induction false} HasFront(s: set<InstanceId>)
    requires s != {}
    ensures exists f :: f in s && forall j :: j in s ==> f <= j
    decreases |s|
  {
    var x :| x in s;
    var rest := s - {x};
    if rest == {} {
      assert IsFront(s, x) by {
        forall j | j in s
          ensures x <= j
        {
          assert j !in rest;
        }
      }
    } else {
      HasFront(rest);
      var f :| f in rest && forall j :: j in rest ==> f <= j;
      var g := if x < f then x else f;
      assert IsFront(s, g) by {
        forall j | j in s
          ensures g <= j
        {
          if j != x {
            assert j in rest;
          }
        }
      }
    }
  }

  predicate IsFront(s: set<InstanceId>, f: InstanceId) {
    f in s && forall j :: j in s ==> f <= j
  }

  /** What `ClearAll` has achieved once the instances outside `r.active` are done. */
  predicate ClearedSoFar(w: World, r: World)
    requires w.active <= w.managers.Keys
  {
    && r.active <= w.active
    && r.managers.Keys == w.managers.Keys
    && (forall i :: i in r.active ==> r.managers[i] == w.managers[i])
    && (forall i :: i in w.active && i !in r.active ==> Cancelled(r.managers[i]))
    && (forall i :: i in w.managers && i !in w.active ==> r.managers[i] == w.managers[i])
    && r.calls == w.calls - SlotsOf(w, w.active - r.active)
    && r.prompts == w.prompts && r.last == w.last && r.env == w.env && r.events == w.events
  }

  lemma ClearStep(w: World, r: World, front: InstanceId)
    requires w.active <= w.managers.Keys
    requires ClearedSoFar(w, r) && front in r.active
    ensures ClearedSoFar(w, Cancel(r, front))
    ensures |Cancel(r, front).active| < |r.active|
  {
    var done := w.active - r.active;
    var r' := Cancel(r, front);
    var slots := Slots(w.managers[front].requestId, w.managers[front].prolongId);
    assert r.managers[front] == w.managers[front];
    assert w.active - r'.active == done + {front};
    SlotsOfAdd(w, done, front);
    MapMinusTwice(w.calls, SlotsOf(w, done), slots);
    forall i | i in w.active && i !in r'.active
      ensures Cancelled(r'.managers[i])
    {
      if i != front {
        assert i !in r.active;
      }
    }
  }

  /** `ClearAll()`: cancel the registry's front until the registry is empty.
      Each `cancel()` removes the instance it runs on, so the loop ends; every
      instance that was in the registry ends torn down with its primary and
      prolong calls cancelled, and nothing else changes. */
  method ClearAll(w: World) returns (r: World)
    requires w.active <= w.managers.Keys
    ensures r.active == {}
    ensures r.managers.Keys == w.managers.Keys
    ensures forall i :: i in w.active ==> Cancelled(r.managers[i])
    ensures forall i :: i in w.managers && i !in w.active ==> r.managers[i] == w.managers[i]
    ensures r.calls == w.calls - SlotsOf(w, w.active)
    ensures r.prompts == w.prompts && r.last == w.last && r.env == w.env && r.events == w.events
  {
    r := w;
    while r.active != {}
      invariant ClearedSoFar(w, r)
      decreases |r.active|
    {
      HasFront(r.active);
      var front :| front in r.active && forall j :: j in r.active ==> front <= j;
      ClearStep(w, r, front);
      r := Cancel(r, front);
    }
    assert w.active - r.active == w.active;
  }
}

=== FILE: session.dfy ===
/** The attach web-view session manager (`InlineBots::AttachWebView`) as a
    state machine over an explicit world: every manager instance, the
    process-wide registry of instances showing a panel, the remote calls in
    flight, the confirmation prompts on screen and the notices emitted.

    Every entry point and every reply, timer tick, confirmation and panel
    signal is a pure transition of the world. A transition yields
    `Abort(TargetMissing)` where the C++ code dereferences a null `_peer` or
    `_bot`, reads the bot info of a user that is not a bot, or violates an
    `Expects`. */
module Session {
  import opened Base
  import opened AttachMenu

  /** Identifies one manager instance (the object address in the C++ code). */
  type InstanceId = nat

  /** A remote call or prompt handle; 0 is the empty slot. */
  type Handle = nat

  /** Error type the server gives when a bot cannot open web views. */
  const BotInvalid: string := "BOT_INVALID"

  /** Error code of a failed username resolution that is reported to the user. */
  const UsernameNotFoundCode: int := 400

  /** What a web-view request carries from its caller. */
  datatype Button = Button(url: string, startCommand: string, text: string)

  /** The open panel, with what its signal handlers captured from `show`. */
  datatype Panel = Panel(queryId: nat, url: string, buttonText: string)

  /** The state of one manager instance, field for field. */
  datatype Manager = Manager(
    peer: Option<PeerId>,
    bot: Option<User>,
    botUsername: string,
    startCommand: string,
    requestId: Handle,
    prolongId: Handle,
    botsRequestId: Handle,
    addToMenuId: Handle,
    addToMenuBot: Option<User>,
    addToMenuPeer: Option<PeerId>,
    addToMenuStartCommand: string,
    attachBots: seq<AttachWebViewBot>,
    botsHash: int,
    panel: Option<Panel>)

  /** A freshly constructed manager. */
  const NewManager: Manager :=
    Manager(None, None, "", "", 0, 0, 0, 0, None, None, "", [], 0, None)

  /** Flags of a `messages.requestWebView` call. */
  datatype Flag = ThemeParams | UrlFlag | StartParamFlag | FromBotMenu

  /** What the add-to-menu flow opens once it is done: `request(nullptr, peer, bot, {startCommand})`
      when a peer was given, nothing otherwise. */
  datatype OpenRequest = OpenRequest(peer: Option<PeerId>, bot: User, startCommand: string)

  /** The callback a toggle call runs when it succeeds. */
  datatype ToggleDone = ShowRemoved | OpenThenShowAdded(open: OpenRequest)

  /** A remote call with the parameters it was issued with. */
  datatype Request =
    | RequestWebView(peer: PeerId, bot: PeerId, url: string, startParam: string,
                     flags: set<Flag>, buttonText: string)
    | RequestSimpleWebView(bot: PeerId, url: string, flags: set<Flag>, buttonText: string)
    | ResolveUsername(username: string)
    | GetAttachMenuBots(hash: int)
    | GetAttachMenuBot(bot: PeerId)
    | ToggleBotInAttachMenu(bot: PeerId, enabled: bool, onDone: ToggleDone)
    | ProlongWebView(peer: PeerId, bot: PeerId, queryId: nat)
    | SendWebViewData(bot: PeerId, buttonText: string, data: string)

  /** A call in flight and the instance whose callbacks receive its reply. */
  datatype Call = Call(owner: InstanceId, request: Request)

  /** A reply delivered for a call in flight. */
  datatype Reply =
    | WebViewResultUrl(queryId: nat, url: string)
    | SimpleWebViewResultUrl(url: string)
    | ResolvedPeer(users: map<PeerId, User>, peer: Option<Peer>)
    | AttachMenuBotsNotModified
    | AttachMenuBots(hash: int, users: map<PeerId, User>, bots: seq<MenuBotData>)
    | AttachMenuBotsBot(users: map<PeerId, User>, bot: MenuBotData)
    | Done
    | Error(code: int, kind: string)

  /** The reply has the type the call's method returns (a failure fits every call). */
  predicate Fits(request: Request, reply: Reply) {
    reply.Error? ||
    match request
    case RequestWebView(_, _, _, _, _, _) => reply.WebViewResultUrl?
    case RequestSimpleWebView(_, _, _, _) => reply.SimpleWebViewResultUrl?
    case ResolveUsername(_) => reply.ResolvedPeer?
    case GetAttachMenuBots(_) => reply.AttachMenuBotsNotModified? || reply.AttachMenuBots?
    case GetAttachMenuBot(_) => reply.AttachMenuBotsBot?
    case ToggleBotInAttachMenu(_, _, _) => reply.Done?
    case ProlongWebView(_, _, _) => reply.Done?
    case SendWebViewData(_, _, _) => reply.Done?
  }

  /** What `confirmOpen` runs once the bot may open a web view. */
  datatype Continuation =
    | RequestWithButton(button: Button)
    | RequestSimple(button: Button)
    | RequestFromMenu(url: string, text: string)

  /** A confirmation box waiting for the user. */
  datatype Prompt =
    | AllowWebView(owner: InstanceId, cont: Continuation)
    | AddToMenu(owner: InstanceId, bot: User, open: OpenRequest)

  datatype Notice =
    | BotMenuNotSupported
    | UsernameNotFound(username: string)
    | BotAlreadyAdded
    | BotAddedDone
    | BotRemovedDone

  /** Observable effects that are not state: toasts, panel activation and
      attach-menu list updates. */
  datatype Event =
    | Toast(notice: Notice)
    | PanelActivated(instance: InstanceId)
    | AttachBotsUpdated(instance: InstanceId)

  /** The collaborators the manager reads: users loaded in the data session,
      the local username directory, the trust store and whether a window is
      active. */
  datatype Env = Env(
    users: map<PeerId, User>,
    directory: map<string, Peer>,
    trusted: set<PeerId>,
    hasActiveWindow: bool)

  datatype World = World(
    managers: map<InstanceId, Manager>,
    active: set<InstanceId>,
    calls: map<Handle, Call>,
    prompts: map<Handle, Prompt>,
    last: nat,
    env: Env,
    events: seq<Event>)

  datatype Fault = TargetMissing

  /** Outcome of a transition. */
  datatype Step = Next(w: World) | Abort(fault: Fault)

  // ---------------------------------------------------------------- helpers

  /** The handle the next call or prompt receives: never 0, never issued before. */
  function Fresh(w: World): Handle {
    w.last + 1
  }

  function Put(w: World, me: InstanceId, m: Manager): World {
    w.(managers := w.managers[me := m])
  }

  function Emit(w: World, e: Event): World {
    w.(events := w.events + [e])
  }

  /** Issues a call under the fresh handle. */
  function Issue(w: World, owner: InstanceId, request: Request): (r: World)
    ensures r.calls == w.calls[Fresh(w) := Call(owner, request)]
    ensures r.last == Fresh(w)
    ensures r.managers == w.managers && r.active == w.active && r.prompts == w.prompts
    ensures r.env == w.env && r.events == w.events
  {
    w.(calls := w.calls[Fresh(w) := Call(owner, request)], last := Fresh(w))
  }

  /** Shows a prompt under the fresh handle. */
  function Ask(w: World, prompt: Prompt): (r: World)
    ensures r.prompts == w.prompts[Fresh(w) := prompt]
    ensures r.last == Fresh(w)
    ensures r.managers == w.managers && r.active == w.active && r.calls == w.calls
    ensures r.env == w.env && r.events == w.events
  {
    w.(prompts := w.prompts[Fresh(w) := prompt], last := Fresh(w))
  }

  /** `api().request(h).cancel()`: the call never delivers its reply; the empty
      handle and finished calls are ignored. */
  function Drop(w: World, h: Handle): (r: World)
    ensures h == 0 ==> r == w
    ensures r.calls == w.calls - Live(h)
    ensures r.managers == w.managers && r.active == w.active && r.prompts == w.prompts
    ensures r.last == w.last && r.env == w.env && r.events == w.events
  {
    if h == 0 then w else w.(calls := w.calls - {h})
  }

  /** The handle a slot holds, as a set: empty for the empty slot. */
  function Live(h: Handle): set<Handle> {
    if h == 0 then {} else {h}
  }

  /** The handles two call slots hold. */
  function Slots(a: Handle, b: Handle): set<Handle> {
    Live(a) + Live(b)
  }

  /** `_peer == _bot` between the two nullable pointers. */
  predicate PeerIsBot(peer: Option<PeerId>, bot: Option<User>) {
    (peer.None? && bot.None?) || (peer.Some? && bot.Some? && peer.value == bot.value.id)
  }

  // ------------------------------------------------------------ teardown

  /** `cancel()`: leave the registry, cancel the primary and prolong calls,
      drop the panel and forget the target. */
  function Cancel(w: World, me: InstanceId): (r: World)
    requires me in w.managers
    ensures me in r.managers && me !in r.active
    ensures r.active == w.active - {me}
    ensures r.calls == w.calls - Slots(w.managers[me].requestId, w.managers[me].prolongId)
    ensures var m := r.managers[me];
      m.requestId == 0 && m.prolongId == 0 && m.panel.None?
      && m.peer.None? && m.bot.None? && m.botUsername == "" && m.startCommand == ""
    ensures var m, m' := w.managers[me], r.managers[me];
      m'.botsRequestId == m.botsRequestId && m'.addToMenuId == m.addToMenuId
      && m'.addToMenuBot == m.addToMenuBot && m'.addToMenuPeer == m.addToMenuPeer
      && m'.addToMenuStartCommand == m.addToMenuStartCommand
      && m'.attachBots == m.attachBots && m'.botsHash == m.botsHash
    ensures r.managers.Keys == w.managers.Keys
    ensures forall i :: i in w.managers && i != me ==> r.managers[i] == w.managers[i]
    ensures r.prompts == w.prompts && r.last == w.last && r.env == w.env && r.events == w.events
  {
    var m := w.managers[me];
    var w1 := Drop(Drop(w.(active := w.active - {me}), m.requestId), m.prolongId);
    Put(w1, me, m.(requestId := 0, prolongId := 0, panel := None, peer := None, bot := None,
                   botUsername := "", startCommand := ""))
  }

  /** The destructor: the instance leaves the registry and disappears together
      with its calls and prompts. */
  function Destroy(w: World, me: InstanceId): (r: World)
    ensures me !in r.managers && me !in r.active
    ensures r.active == w.active - {me}
    ensures forall h :: h in r.calls <==> h in w.calls && w.calls[h].owner != me
    ensures forall h :: h in r.prompts <==> h in w.prompts && w.prompts[h].owner != me
    ensures forall i :: i in r.managers <==> i in w.managers && i != me
    ensures forall i :: i in r.managers ==> r.managers[i] == w.managers[i]
    ensures forall h :: h in r.calls ==> r.calls[h] == w.calls[h]
    ensures forall h :: h in r.prompts ==> r.prompts[h] == w.prompts[h]
    ensures r.last == w.last && r.env == w.env && r.events == w.events
  {
    w.(managers := w.managers - {me},
       active := w.active - {me},
       calls := map h | h in w.calls && w.calls[h].owner != me :: w.calls[h],
       prompts := map h | h in w.prompts && w.prompts[h].owner != me :: w.prompts[h])
  }

  // ------------------------------------------------------------ bot list

  /** `requestBots()`: single-flight refresh of the attach-menu list carrying
      the local hash. */
  function RequestBots(w: World, me: InstanceId): (r: World)
    requires me in w.managers
    ensures w.managers[me].botsRequestId != 0 ==> r == w
    ensures w.managers[me].botsRequestId == 0 ==>
      && r.calls == w.calls[Fresh(w) := Call(me, GetAttachMenuBots(w.managers[me].botsHash))]
      && r.managers == w.managers[me := w.managers[me].(botsRequestId := Fresh(w))]
      && r.last == Fresh(w)
      && r.active == w.active && r.prompts == w.prompts && r.env == w.env && r.events == w.events
  {
    var m := w.managers[me];
    if m.botsRequestId != 0 then w
    else Put(Issue(w, me, GetAttachMenuBots(m.botsHash)), me, m.(botsRequestId := Fresh(w)))
  }

  /** Reply to `messages.getAttachMenuBots`: not-modified and failure keep the
      list and hash; a full reply loads its users, takes its hash and replaces
      the list with the shown entries in server order, then fires one update. */
  function OnBotsReply(w: World, me: InstanceId, reply: Reply): (r: World)
    requires me in w.managers
    requires Fits(GetAttachMenuBots(0), reply)
    ensures me in r.managers && r.managers[me].botsRequestId == 0
    ensures !reply.AttachMenuBots? ==>
      && r.managers[me] == w.managers[me].(botsRequestId := 0)
      && r.events == w.events && r.env == w.env
    ensures reply.AttachMenuBots? ==>
      && r.managers[me].botsHash == reply.hash
      && r.managers[me].attachBots == Visible(w.env.users + reply.users, reply.bots)
      && r.env.users == w.env.users + reply.users
      && r.events == w.events + [AttachBotsUpdated(me)]
    ensures var m, m' := w.managers[me], r.managers[me];
      m' == m.(botsRequestId := 0, botsHash := m'.botsHash, attachBots := m'.attachBots)
    ensures r.managers.Keys == w.managers.Keys
    ensures forall i :: i in w.managers && i != me ==> r.managers[i] == w.managers[i]
    ensures r.calls == w.calls && r.active == w.active && r.prompts == w.prompts && r.last == w.last
    ensures r.env.directory == w.env.directory && r.env.trusted == w.env.trusted
    ensures r.env.hasActiveWindow == w.env.hasActiveWindow
  {
    var m := w.managers[me].(botsRequestId := 0);
    match reply
    case AttachMenuBots(hash, users, bots) =>
      var loaded := w.env.users + users;
      Emit(Put(w.(env := w.env.(users := loaded)), me,
               m.(botsHash := hash, attachBots := Visible(loaded, bots))),
           AttachBotsUpdated(me))
    case _ => Put(w, me, m)
  }

  // ------------------------------------------------------------ web-view requests

  /** Flags of `request(button)`: theme params always, the url flag iff a url
      is given, the start-param flag iff a start command is given. */
  function RequestFlags(url: string, startCommand: string): (r: set<Flag>)
    ensures ThemeParams in r && FromBotMenu !in r
    ensures UrlFlag in r <==> url != ""
    ensures StartParamFlag in r <==> startCommand != ""
  {
    {ThemeParams} + (if url == "" then {} else {UrlFlag})
      + (if startCommand == "" then {} else {StartParamFlag})
  }

  /** `request(button)`: remember the start command and issue
      `messages.requestWebView` for the current target into the primary slot. */
  function RequestWithButtonStep(w: World, me: InstanceId, button: Button): (r: Step)
    requires me in w.managers
    ensures r.Abort? <==> w.managers[me].peer.None? || w.managers[me].bot.None?
    ensures r.Next? ==>
      var m := w.managers[me];
      && r.w.calls == w.calls[Fresh(w) := Call(me, RequestWebView(m.peer.value, m.bot.value.id,
                                   button.url, button.startCommand,
                                   RequestFlags(button.url, button.startCommand), button.text))]
      && r.w.managers == w.managers[me := m.(startCommand := button.startCommand, requestId := Fresh(w))]
      && r.w.last == Fresh(w) && r.w.active == w.active && r.w.prompts == w.prompts
      && r.w.env == w.env && r.w.events == w.events
  {
    var m := w.managers[me];
    if m.peer.None? || m.bot.None? then Abort(TargetMissing)
    else
      var request := RequestWebView(m.peer.value, m.bot.value.id, button.url, button.startCommand,
                                    RequestFlags(button.url, button.startCommand), button.text);
      Next(Put(Issue(w, me, request), me, m.(startCommand := button.startCommand, requestId := Fresh(w))))
  }

  /** `requestSimple(button)`: `messages.requestSimpleWebView` for the current bot. */
  function RequestSimpleStep(w: World, me: InstanceId, button: Button): (r: Step)
    requires me in w.managers
    ensures r.Abort? <==> w.managers[me].bot.None?
    ensures r.Next? ==>
      && r.w.calls == w.calls[Fresh(w) := Call(me, RequestSimpleWebView(w.managers[me].bot.value.id,
                                   button.url, {ThemeParams}, button.text))]
      && r.w.managers == w.managers[me := w.managers[me].(requestId := Fresh(w))]
      && r.w.last == Fresh(w) && r.w.active == w.active && r.w.prompts == w.prompts
      && r.w.env == w.env && r.w.events == w.events
  {
    var m := w.managers[me];
    if m.bot.None? then Abort(TargetMissing)
    else
      Next(Put(Issue(w, me, RequestSimpleWebView(m.bot.value.id, button.url, {ThemeParams}, button.text)),
               me, m.(requestId := Fresh(w))))
  }

  /** The menu-button request: `messages.requestWebView` from the bot's own chat
      with the url and text captured when the menu button was pressed. */
  function RequestFromMenuStep(w: World, me: InstanceId, url: string, text: string): (r: Step)
    requires me in w.managers
    ensures r.Abort? <==> w.managers[me].bot.None?
    ensures r.Next? ==>
      var b := w.managers[me].bot.value.id;
      && r.w.calls == w.calls[Fresh(w) := Call(me, RequestWebView(b, b, url, "",
                                   {ThemeParams, UrlFlag, FromBotMenu}, text))]
      && r.w.managers == w.managers[me := w.managers[me].(requestId := Fresh(w))]
      && r.w.last == Fresh(w) && r.w.active == w.active && r.w.prompts == w.prompts
      && r.w.env == w.env && r.w.events == w.events
  {
    var m := w.managers[me];
    if m.bot.None? then Abort(TargetMissing)
    else
      var b := m.bot.value.id;
      Next(Put(Issue(w, me, RequestWebView(b, b, url, "", {ThemeParams, UrlFlag, FromBotMenu}, text)),
               me, m.(requestId := Fresh(w))))
  }

  /** Runs what `confirmOpen` guards: each continuation issues exactly one
      web-view call into the primary slot, and faults on a null target. */
  function RunContinuation(w: World, me: InstanceId, cont: Continuation): (r: Step)
    requires me in w.managers
    ensures var m := w.managers[me];
      r.Abort? <==> m.bot.None? || (cont.RequestWithButton? && m.peer.None?)
    ensures r.Next? ==>
      && Fresh(w) in r.w.calls && r.w.calls[Fresh(w)].owner == me
      && r.w.calls - {Fresh(w)} == w.calls - {Fresh(w)}
      && me in r.w.managers
      && r.w.managers == w.managers[me := w.managers[me].(
           requestId := Fresh(w),
           startCommand := if cont.RequestWithButton? then cont.button.startCommand
                           else w.managers[me].startCommand)]
      && r.w.last == Fresh(w) && r.w.active == w.active && r.w.prompts == w.prompts
      && r.w.env == w.env && r.w.events == w.events
    ensures r.Next? && cont.RequestWithButton? ==>
      var q := r.w.calls[Fresh(w)].request;
      && q.RequestWebView? && q.peer == w.managers[me].peer.value && q.bot == w.managers[me].bot.value.id
      && q.url == cont.button.url && q.startParam == cont.button.startCommand
    ensures r.Next? && cont.RequestSimple? ==>
      var q := r.w.calls[Fresh(w)].request;
      q.RequestSimpleWebView? && q.bot == w.managers[me].bot.value.id && q.url == cont.button.url
    ensures r.Next? && cont.RequestFromMenu? ==>
      var q := r.w.calls[Fresh(w)].request;
      && q.RequestWebView? && q.peer == q.bot == w.managers[me].bot.value.id
      && q.url == cont.url && FromBotMenu in q.flags
  {
    match cont
    case RequestWithButton(button) => RequestWithButtonStep(w, me, button)
    case RequestSimple(button) => RequestSimpleStep(w, me, button)
    case RequestFromMenu(url, text) => RequestFromMenuStep(w, me, url, text)
  }

  /** The bot may open web views without asking: verified, or trusted before. */
  predicate Trusted(env: Env, bot: User) {
    bot.verified || bot.id in env.trusted
  }

  /** `confirmOpen(controller, done)`: nothing without a bot; the continuation
      at once for a trusted bot; otherwise only a prompt. */
  function ConfirmOpen(w: World, me: InstanceId, cont: Continuation): (r: Step)
    requires me in w.managers
    ensures w.managers[me].bot.None? ==> r == Next(w)
    ensures w.managers[me].bot.Some? && Trusted(w.env, w.managers[me].bot.value) ==>
      && r == RunContinuation(w, me, cont)
      && (r.Abort? <==> cont.RequestWithButton? && w.managers[me].peer.None?)
      && (r.Next? ==> r.w.env == w.env && r.w.prompts == w.prompts && Fresh(w) in r.w.calls)
    ensures w.managers[me].bot.Some? && !Trusted(w.env, w.managers[me].bot.value) ==>
      && r.Next?
      && r.w.prompts == w.prompts[Fresh(w) := AllowWebView(me, cont)]
      && r.w.calls == w.calls && r.w.managers == w.managers && r.w.env == w.env
      && r.w.active == w.active && r.w.events == w.events
  {
    var m := w.managers[me];
    if m.bot.None? then Next(w)
    else if Trusted(w.env, m.bot.value) then RunContinuation(w, me, cont)
    else Next(Ask(w, AllowWebView(me, cont)))
  }

  /** Forget the old session and aim at a new peer and bot. */
  function Retarget(w: World, me: InstanceId, peer: PeerId, bot: User): (r: World)
    requires me in w.managers
    ensures me in r.managers && me !in r.active
    ensures r.active == w.active - {me}
    ensures r.managers[me].peer == Some(peer) && r.managers[me].bot == Some(bot)
    ensures r.calls == w.calls - Slots(w.managers[me].requestId, w.managers[me].prolongId)
    ensures var m, m' := w.managers[me], r.managers[me];
      && m'.requestId == 0 && m'.prolongId == 0 && m'.panel.None?
      && m'.botUsername == "" && m'.startCommand == ""
      && m'.botsRequestId == m.botsRequestId && m'.addToMenuId == m.addToMenuId
      && m'.addToMenuBot == m.addToMenuBot && m'.addToMenuPeer == m.addToMenuPeer
      && m'.addToMenuStartCommand == m.addToMenuStartCommand
      && m'.attachBots == m.attachBots && m'.botsHash == m.botsHash
    ensures r.managers.Keys == w.managers.Keys
    ensures forall i :: i in w.managers && i != me ==> r.managers[i] == w.managers[i]
    ensures r.prompts == w.prompts && r.last == w.last && r.env == w.env && r.events == w.events
  {
    var w1 := Cancel(w, me);
    Put(w1, me, w1.managers[me].(bot := Some(bot), peer := Some(peer)))
  }

  /** The restart half of `request(controller, peer, bot, button)`: cancel,
      take the new target, then request at once without a controller or
      through `confirmOpen` with one. It never faults, never writes trust and
      emits nothing; without a controller, or for a trusted bot, it issues
      exactly the one web-view call. */
  function RestartFor(w: World, me: InstanceId, hasController: bool, peer: PeerId, bot: User, button: Button): (r: Step)
    requires me in w.managers
    ensures && r.Next? && me in r.w.managers && me !in r.w.active
            && r.w.managers[me].peer == Some(peer) && r.w.managers[me].bot == Some(bot)
            && r.w.managers[me].botsRequestId == w.managers[me].botsRequestId
            && r.w.env == w.env && r.w.events == w.events
    ensures !hasController || Trusted(w.env, bot) ==>
      var m := w.managers[me];
      && r.w.prompts == w.prompts
      && r.w.calls == (w.calls - Slots(m.requestId, m.prolongId))[Fresh(w) :=
           Call(me, RequestWebView(peer, bot.id, button.url, button.startCommand,
                                   RequestFlags(button.url, button.startCommand), button.text))]
      && r.w.managers[me].requestId == Fresh(w)
  {
    var w1 := Retarget(w, me, peer, bot);
    if hasController then ConfirmOpen(w1, me, RequestWithButton(button))
    else RunContinuation(w1, me, RequestWithButton(button))
  }

  /** `request(controller, peer, bot, button)`: a request already in flight for
      the same target is kept; otherwise the session restarts for the target,
      with consent asked only when a controller is given. */
  function OpenByBot(w: World, me: InstanceId, hasController: bool, peer: PeerId, bot: User, button: Button): (r: Step)
    requires me in w.managers
    ensures var m := w.managers[me];
      m.peer == Some(peer) && SameUser(m.bot, bot) && m.panel.None? && m.requestId != 0 ==> r == Next(w)
    ensures && r.Next? && me in r.w.managers
            && r.w.managers[me].peer == Some(peer) && SameUser(r.w.managers[me].bot, bot)
            && r.w.managers[me].botsRequestId == w.managers[me].botsRequestId
            && r.w.env == w.env
            && (!hasController ==> r.w.prompts == w.prompts)
    ensures var m := w.managers[me];
      hasController && Trusted(w.env, bot)
      && !(m.peer == Some(peer) && SameUser(m.bot, bot) && m.panel.None? && m.requestId != 0) ==>
        && r.w.prompts == w.prompts
        && r.w.calls == (w.calls - Slots(m.requestId, m.prolongId))[Fresh(w) :=
             Call(me, RequestWebView(peer, bot.id, button.url, button.startCommand,
                                     RequestFlags(button.url, button.startCommand), button.text))]
    ensures var m := w.managers[me];
      m.peer == Some(peer) && SameUser(m.bot, bot) && m.panel.Some? ==>
        |r.w.events| > |w.events| && r.w.events[|w.events|] == PanelActivated(me) && me !in r.w.active
  {
    var m := w.managers[me];
    var same := m.peer == Some(peer) && SameUser(m.bot, bot);
    if same && m.panel.None? && m.requestId != 0 then Next(w)
    else
      var w0 := if same && m.panel.Some? then Emit(w, PanelActivated(me)) else w;
      RestartFor(w0, me, hasController, peer, bot, button)
  }

  /** `requestSimple(controller, bot, button)`: the session restarts in the
      bot's own chat, and the simple web-view request waits for consent unless
      the bot is trusted. */
  function OpenSimple(w: World, me: InstanceId, bot: User, button: Button): (r: Step)
    requires me in w.managers
    ensures r.Next? && me in r.w.managers && me !in r.w.active
    ensures r.w.managers[me].peer == Some(bot.id) && r.w.managers[me].bot == Some(bot)
    ensures r.w.env == w.env
    ensures var m := w.managers[me];
      Trusted(w.env, bot) ==>
        && r.w.calls == (w.calls - Slots(m.requestId, m.prolongId))[Fresh(w) :=
             Call(me, RequestSimpleWebView(bot.id, button.url, {ThemeParams}, button.text))]
        && r.w.managers[me].requestId == Fresh(w) && r.w.prompts == w.prompts
    ensures var m := w.managers[me];
      !Trusted(w.env, bot) ==>
        && r.w.calls == w.calls - Slots(m.requestId, m.prolongId)
        && r.w.prompts == w.prompts[Fresh(w) := AllowWebView(me, RequestSimple(button))]
        && r.w.managers[me].requestId == 0
  {
    ConfirmOpen(Retarget(w, me, bot.id, bot), me, RequestSimple(button))
  }

  /** `requestMenu(controller, bot)`: the session restarts in the bot's own
      chat; the menu button's url and text are read now from the bot info,
      which a user that is not a bot lacks, and the request waits for consent
      unless the bot is trusted. */
  function OpenMenu(w: World, me: InstanceId, bot: User): (r: Step)
    requires me in w.managers
    ensures r.Abort? <==> !bot.isBot
    ensures r.Next? ==>
      && me in r.w.managers && me !in r.w.active
      && r.w.managers[me].peer == Some(bot.id) && r.w.managers[me].bot == Some(bot)
      && r.w.env == w.env
    ensures var m := w.managers[me];
      bot.isBot && Trusted(w.env, bot) ==>
        && r.w.calls == (w.calls - Slots(m.requestId, m.prolongId))[Fresh(w) :=
             Call(me, RequestWebView(bot.id, bot.id, bot.menuButtonUrl, "",
                                     {ThemeParams, UrlFlag, FromBotMenu}, bot.menuButtonText))]
        && r.w.managers[me].requestId == Fresh(w) && r.w.prompts == w.prompts
    ensures var m := w.managers[me];
      bot.isBot && !Trusted(w.env, bot) ==>
        && r.w.calls == w.calls - Slots(m.requestId, m.prolongId)
        && r.w.prompts == w.prompts[Fresh(w) := AllowWebView(me, RequestFromMenu(bot.menuButtonUrl, bot.menuButtonText))]
        && r.w.managers[me].requestId == 0
  {
    if !bot.isBot then Abort(TargetMissing)
    else ConfirmOpen(Retarget(w, me, bot.id, bot), me, RequestFromMenu(bot.menuButtonUrl, bot.menuButtonText))
  }

  /** `show(queryId, url, buttonText)` and `started(queryId)`: join the registry
      and hold the panel, whose result-sent filter and prolong timer use `queryId`. */
  function Show(w: World, me: InstanceId, queryId: nat, url: string, text: string): (r: Step)
    requires me in w.managers
    ensures r.Abort? <==> w.managers[me].peer.None? || w.managers[me].bot.None?
    ensures r.Next? ==>
      && r.w.active == w.active + {me}
      && r.w.managers == w.managers[me := w.managers[me].(panel := Some(Panel(queryId, url, text)))]
      && r.w.calls == w.calls && r.w.prompts == w.prompts && r.w.last == w.last
      && r.w.env == w.env && r.w.events == w.events
  {
    var m := w.managers[me];
    if m.peer.None? || m.bot.None? then Abort(TargetMissing)
    else Next(Put(w.(active := w.active + {me}), me, m.(panel := Some(Panel(queryId, url, text)))))
  }

  /** Reply to either web-view request: the primary slot is cleared whatever
      the reply; a url opens the panel; `BOT_INVALID` refreshes the bot list. */
  function OnWebViewReply(w: World, me: InstanceId, request: Request, reply: Reply): (r: Step)
    requires me in w.managers
    requires request.RequestWebView? || request.RequestSimpleWebView?
    requires Fits(request, reply)
    ensures r.Next? ==> me in r.w.managers && r.w.managers[me].requestId == 0
    ensures reply.Error? ==>
      var w1 := Put(w, me, w.managers[me].(requestId := 0));
      r == Next(if request.RequestWebView? && reply.kind == BotInvalid then RequestBots(w1, me) else w1)
    ensures reply.WebViewResultUrl? ==>
      r == Show(Put(w, me, w.managers[me].(requestId := 0)), me, reply.queryId, reply.url, request.buttonText)
    ensures reply.SimpleWebViewResultUrl? ==>
      r == Show(Put(w, me, w.managers[me].(requestId := 0)), me, 0, reply.url, request.buttonText)
  {
    var w1 := Put(w, me, w.managers[me].(requestId := 0));
    match reply
    case WebViewResultUrl(queryId, url) => Show(w1, me, queryId, url, request.buttonText)
    case SimpleWebViewResultUrl(url) => Show(w1, me, 0, url, request.buttonText)
    case Error(_, kind) =>
      Next(if request.RequestWebView? && kind == BotInvalid then RequestBots(w1, me) else w1)
  }

  // ------------------------------------------------------------ add to menu

  /** `requestAddToMenu(peer, bot, startCommand)`. */
  function RequestAddToMenu(w: World, me: InstanceId, peer: Option<PeerId>, bot: User, startCommand: string): (r: World)
    requires me in w.managers
    ensures !bot.isBot || !bot.supportsAttachMenu ==> r == Emit(w, Toast(BotMenuNotSupported))
    ensures bot.isBot && bot.supportsAttachMenu ==>
      && me in r.managers
      && r.managers[me].addToMenuPeer == peer
      && r.managers[me].addToMenuStartCommand == startCommand
      && r.events == w.events && r.active == w.active && r.prompts == w.prompts && r.env == w.env
    ensures var m := w.managers[me];
      bot.isBot && bot.supportsAttachMenu && m.addToMenuId != 0 && SameUser(m.addToMenuBot, bot) ==>
        r.calls == w.calls && r.last == w.last && r.managers[me].addToMenuId == m.addToMenuId
    ensures var m := w.managers[me];
      bot.isBot && bot.supportsAttachMenu && !(m.addToMenuId != 0 && SameUser(m.addToMenuBot, bot)) ==>
        && r.calls == (w.calls - Live(m.addToMenuId))[Fresh(w) := Call(me, GetAttachMenuBot(bot.id))]
        && r.managers[me].addToMenuId == Fresh(w)
        && r.managers[me].addToMenuBot == Some(bot)
        && r.last == Fresh(w)
  {
    var m := w.managers[me];
    if !bot.isBot || !bot.supportsAttachMenu then Emit(w, Toast(BotMenuNotSupported))
    else
      var m1 := m.(addToMenuStartCommand := startCommand, addToMenuPeer := peer);
      if m.addToMenuId != 0 && SameUser(m.addToMenuBot, bot) then Put(w, me, m1)
      else
        var w1 := Drop(w, m.addToMenuId);
        Put(Issue(w1, me, GetAttachMenuBot(bot.id)), me,
            m1.(addToMenuBot := Some(bot), addToMenuId := Fresh(w1)))
  }

  /** The `open` continuation of the add-to-menu flow: re-enters
      `request(nullptr, peer, bot, {startCommand})`, which skips consent. */
  function RunOpen(w: World, me: InstanceId, open: OpenRequest): (r: Step)
    requires me in w.managers
    ensures open.peer.None? ==> r == Next(w)
    ensures && r.Next? && me in r.w.managers
            && r.w.managers[me].botsRequestId == w.managers[me].botsRequestId
            && r.w.env == w.env && r.w.prompts == w.prompts
            && (open.peer.Some? ==>
                  r.w.managers[me].peer == open.peer && SameUser(r.w.managers[me].bot, open.bot))
  {
    if open.peer.None? then Next(w)
    else OpenByBot(w, me, false, open.peer.value, open.bot, Button("", open.startCommand, ""))
  }

  /** Reply to `messages.getAttachMenuBot`: the pending add-to-menu fields are
      taken; a reply about another user than the pending bot does nothing
      more; an inactive bot is offered for adding; an active one refreshes the
      list and opens or reports it; a failure reports "not supported". */
  function OnMenuBotReply(w: World, me: InstanceId, reply: Reply): (r: Step)
    requires me in w.managers
    requires Fits(GetAttachMenuBot(0), reply)
    ensures reply.Error? ==>
      var m := w.managers[me];
      r == Next(Emit(Put(w, me, m.(addToMenuId := 0, addToMenuBot := None, addToMenuPeer := None,
                                   addToMenuStartCommand := "")),
                     Toast(BotMenuNotSupported)))
    ensures reply.AttachMenuBotsBot? ==>
      var parsed := ParseAttachBot(w.env.users + reply.users, reply.bot);
      (parsed.None? || !SameUser(w.managers[me].addToMenuBot, parsed.value.user)) ==>
        && r.Next? && r.w.calls == w.calls && r.w.prompts == w.prompts && r.w.events == w.events
        && me in r.w.managers && r.w.managers[me].addToMenuId == 0 && r.w.managers[me].addToMenuBot.None?
    ensures reply.AttachMenuBotsBot? ==>
      var m := w.managers[me];
      var parsed := ParseAttachBot(w.env.users + reply.users, reply.bot);
      parsed.Some? && SameUser(m.addToMenuBot, parsed.value.user) && parsed.value.inactive ==>
        && r.Next? && r.w.calls == w.calls && r.w.events == w.events
        && r.w.prompts == (if w.env.hasActiveWindow
                           then w.prompts[Fresh(w) := AddToMenu(me, parsed.value.user,
                                  OpenRequest(m.addToMenuPeer, m.addToMenuBot.value, m.addToMenuStartCommand))]
                           else w.prompts)
    ensures reply.AttachMenuBotsBot? ==>
      var m := w.managers[me];
      var parsed := ParseAttachBot(w.env.users + reply.users, reply.bot);
      parsed.Some? && SameUser(m.addToMenuBot, parsed.value.user) && !parsed.value.inactive ==>
        && r.Next? && me in r.w.managers && r.w.managers[me].botsRequestId != 0 && r.w.prompts == w.prompts
        && (m.addToMenuPeer.None? ==>
              && r.w.events == w.events + [Toast(BotAlreadyAdded)]
              && r.w.calls == if m.botsRequestId == 0
                              then w.calls[Fresh(w) := Call(me, GetAttachMenuBots(m.botsHash))]
                              else w.calls)
        && (m.addToMenuPeer.Some? ==>
              r.w.managers[me].peer == m.addToMenuPeer && SameUser(r.w.managers[me].bot, m.addToMenuBot.value))
  {
    var m := w.managers[me];
    var cleared := m.(addToMenuId := 0, addToMenuBot := None, addToMenuPeer := None, addToMenuStartCommand := "");
    match reply
    case Error(_, _) => Next(Emit(Put(w, me, cleared), Toast(BotMenuNotSupported)))
    case AttachMenuBotsBot(users, data) =>
      var w1 := Put(w.(env := w.env.(users := w.env.users + users)), me, cleared);
      var parsed := ParseAttachBot(w1.env.users, data);
      if parsed.None? || !SameUser(m.addToMenuBot, parsed.value.user) then Next(w1)
      else
        var open := OpenRequest(m.addToMenuPeer, m.addToMenuBot.value, m.addToMenuStartCommand);
        if parsed.value.inactive then
          Next(if w1.env.hasActiveWindow then Ask(w1, AddToMenu(me, parsed.value.user, open)) else w1)
        else
          var w2 := RequestBots(w1, me);
          if open.peer.Some? then RunOpen(w2, me, open)
          else Next(Emit(w2, Toast(BotAlreadyAdded)))
  }

  /** `removeFromMenu(bot)`: an untracked toggle call that disables the bot. */
  function RemoveFromMenu(w: World, me: InstanceId, bot: User): (r: World)
    ensures r.calls == w.calls[Fresh(w) := Call(me, ToggleBotInAttachMenu(bot.id, false, ShowRemoved))]
    ensures r.managers == w.managers && r.active == w.active && r.events == w.events
  {
    Issue(w, me, ToggleBotInAttachMenu(bot.id, false, ShowRemoved))
  }

  /** Reply to the toggle call: success zeroes the primary slot without
      cancelling it, refreshes the list and runs the callback; failure cancels
      the session. */
  function OnToggleReply(w: World, me: InstanceId, onDone: ToggleDone, reply: Reply): (r: Step)
    requires me in w.managers
    requires reply.Done? || reply.Error?
    ensures reply.Error? ==> r == Next(Cancel(w, me))
    ensures reply.Done? && onDone.ShowRemoved? ==>
      var w1 := RequestBots(Put(w, me, w.managers[me].(requestId := 0)), me);
      r == Next(Emit(w1, Toast(BotRemovedDone)))
    ensures reply.Done? && onDone.ShowRemoved? ==>
      && r.Next? && me in r.w.managers && r.w.managers[me].requestId == 0
      && forall k :: k in w.calls ==> k in r.w.calls
    ensures reply.Done? && onDone.OpenThenShowAdded? ==>
      && r.Next? && me in r.w.managers
      && |r.w.events| > 0 && r.w.events[|r.w.events| - 1] == Toast(BotAddedDone)
      && r.w.managers[me].botsRequestId != 0
      && (onDone.open.peer.Some? ==>
            r.w.managers[me].peer == onDone.open.peer && SameUser(r.w.managers[me].bot, onDone.open.bot))
  {
    if reply.Error? then Next(Cancel(w, me))
    else
      var w1 := RequestBots(Put(w, me, w.managers[me].(requestId := 0)), me);
      match onDone
      case ShowRemoved => Next(Emit(w1, Toast(BotRemovedDone)))
      case OpenThenShowAdded(open) =>
        match RunOpen(w1, me, open)
        case Abort(f) => Abort(f)
        case Next(w2) => Next(Emit(w2, Toast(BotAddedDone)))
  }

  // ------------------------------------------------------------ username path

  /** The `done` callback of `resolve()`: the resolved peer becomes the bot
      (null when it is not a user) and goes through `requestAddToMenu`. */
  function OnResolved(w: World, me: InstanceId, peer: Peer): (r: World)
    requires me in w.managers
    ensures me in r.managers && r.managers[me].bot == AsUser(peer)
    ensures r.managers[me].requestId == w.managers[me].requestId && r.managers[me].peer == w.managers[me].peer
    ensures peer.ChatPeer? ==> r.events == w.events + [Toast(BotMenuNotSupported)] && r.calls == w.calls
    ensures peer.UserPeer? && !(peer.user.isBot && peer.user.supportsAttachMenu) ==>
      r.events == w.events + [Toast(BotMenuNotSupported)] && r.calls == w.calls
    ensures var m := w.managers[me];
      peer.UserPeer? && peer.user.isBot && peer.user.supportsAttachMenu ==>
        && r.managers[me].addToMenuPeer == m.peer && r.managers[me].addToMenuStartCommand == m.startCommand
        && SameUser(r.managers[me].addToMenuBot, peer.user) && r.managers[me].addToMenuId != 0
        && r.events == w.events && r.prompts == w.prompts
    ensures var m := w.managers[me];
      peer.UserPeer? && peer.user.isBot && peer.user.supportsAttachMenu && m.addToMenuId == 0 ==>
        && r.calls == w.calls[Fresh(w) := Call(me, GetAttachMenuBot(peer.user.id))]
        && r.managers[me].addToMenuId == Fresh(w)
  {
    var m := w.managers[me];
    var w1 := Put(w, me, m.(bot := AsUser(peer)));
    match peer
    case ChatPeer(_) => Emit(w1, Toast(BotMenuNotSupported))
    case UserPeer(u) => RequestAddToMenu(w1, me, m.peer, u, m.startCommand)
  }

  /** `resolve()`: the local directory first, otherwise `contacts.resolveUsername`
      in the primary slot, cancelling what was there. */
  function Resolve(w: World, me: InstanceId): (r: Step)
    requires me in w.managers
    ensures r.Abort? <==> w.managers[me].peer.None?
    ensures r.Next? && w.managers[me].botUsername !in w.env.directory ==>
      var m := w.managers[me];
      && r.w.calls == (w.calls - Live(m.requestId))[Fresh(w) := Call(me, ResolveUsername(m.botUsername))]
      && r.w.managers == w.managers[me := m.(requestId := Fresh(w))]
  {
    var m := w.managers[me];
    if m.peer.None? then Abort(TargetMissing)
    else if m.botUsername in w.env.directory then Next(OnResolved(w, me, w.env.directory[m.botUsername]))
    else
      var w1 := Drop(w, m.requestId);
      Next(Put(Issue(w1, me, ResolveUsername(m.botUsername)), me, m.(requestId := Fresh(w1))))
  }

  /** The username of the current target, as `request(peer, botUsername, ...)` compares it. */
  function CurrentUsername(m: Manager): string {
    if m.bot.Some? then m.bot.value.username else m.botUsername
  }

  /** `request(peer, botUsername, startCommand)`. */
  function OpenByUsername(w: World, me: InstanceId, peer: PeerId, username: string, startCommand: string): (r: Step)
    requires me in w.managers
    ensures username == "" ==> r == Next(w)
    ensures var m := w.managers[me];
      username != "" && m.peer == Some(peer) && SameUsername(CurrentUsername(m), username)
      && m.startCommand == startCommand ==>
        && r.Next?
        && r.w.managers == w.managers && r.w.calls == w.calls && r.w.active == w.active
        && r.w.prompts == w.prompts && r.w.last == w.last && r.w.env == w.env
        && r.w.events == w.events + (if m.panel.Some? then [PanelActivated(me)] else [])
  {
    var m := w.managers[me];
    if username == "" then Next(w)
    else if m.peer == Some(peer) && SameUsername(CurrentUsername(m), username) && m.startCommand == startCommand then
      Next(if m.panel.Some? then Emit(w, PanelActivated(me)) else w)
    else
      var w1 := Cancel(w, me);
      Resolve(Put(w1, me, w1.managers[me].(peer := Some(peer), botUsername := username, startCommand := startCommand)), me)
  }

  /** Reply to `contacts.resolveUsername`: the primary slot is cleared; a
      resolved peer goes on as in `resolve()`; a 400 failure reports the
      username as not found. */
  function OnResolveReply(w: World, me: InstanceId, username: string, reply: Reply): (r: Step)
    requires me in w.managers
    requires Fits(ResolveUsername(username), reply)
    ensures r.Next? ==> me in r.w.managers
    ensures reply.Error? ==>
      r == Next(var w1 := Put(w, me, w.managers[me].(requestId := 0));
                if reply.code == UsernameNotFoundCode then Emit(w1, Toast(UsernameNotFound(username))) else w1)
    ensures reply.ResolvedPeer? ==> (r.Abort? <==> w.managers[me].peer.None?)
    ensures reply.ResolvedPeer? && w.managers[me].peer.Some? ==>
      && r.Next? && r.w.managers[me].requestId == 0
      && r.w.env.users == w.env.users + reply.users
      && (reply.peer.None? ==>
            r.w.calls == w.calls && r.w.events == w.events && r.w.managers[me] == w.managers[me].(requestId := 0))
      && (reply.peer.Some? ==> r.w.managers[me].bot == AsUser(reply.peer.value))
    ensures var m := w.managers[me];
      reply.ResolvedPeer? && m.peer.Some? && reply.peer.Some? && reply.peer.value.UserPeer?
      && reply.peer.value.user.isBot && reply.peer.value.user.supportsAttachMenu && m.addToMenuId == 0 ==>
        && r.Next?
        && r.w.calls == w.calls[Fresh(w) := Call(me, GetAttachMenuBot(reply.peer.value.user.id))]
        && r.w.managers[me].addToMenuPeer == m.peer
  {
    var w1 := Put(w, me, w.managers[me].(requestId := 0));
    match reply
    case Error(code, _) =>
      Next(if code == UsernameNotFoundCode then Emit(w1, Toast(UsernameNotFound(username))) else w1)
    case ResolvedPeer(users, peer) =>
      if w.managers[me].peer.None? then Abort(TargetMissing)
      else
        var w2 := w1.(env := w1.env.(users := w1.env.users + users));
        if peer.None? then Next(w2) else Next(OnResolved(w2, me, peer.value))
  }

  // ------------------------------------------------------------ open panel

  /** One 60-second period of the prolong timer, which lives as long as the
      panel: the previous prolong call is cancelled and a new one issued. */
  function Tick(w: World, me: InstanceId): (r: Step)
    requires me in w.managers
    ensures w.managers[me].panel.None? ==> r == Next(w)
    ensures var m := w.managers[me];
      r.Abort? <==> m.panel.Some? && (m.peer.None? || m.bot.None?)
    ensures var m := w.managers[me];
      m.panel.Some? && m.peer.Some? && m.bot.Some? ==>
        && r.Next?
        && r.w.calls == (w.calls - Live(m.prolongId))[Fresh(w) :=
             Call(me, ProlongWebView(m.peer.value, m.bot.value.id, m.panel.value.queryId))]
        && r.w.managers == w.managers[me := m.(prolongId := Fresh(w))]
  {
    var m := w.managers[me];
    if m.panel.None? then Next(w)
    else if m.peer.None? || m.bot.None? then Abort(TargetMissing)
    else
      var w1 := Drop(w, m.prolongId);
      Next(Put(Issue(w1, me, ProlongWebView(m.peer.value, m.bot.value.id, m.panel.value.queryId)),
               me, m.(prolongId := Fresh(w1))))
  }

  /** Reply to the prolong call: success clears the slot; there is no failure
      handler, so a failure leaves the slot as it was. */
  function OnProlongReply(w: World, me: InstanceId, reply: Reply): (r: World)
    requires me in w.managers
    ensures reply.Done? ==>
      && r.managers == w.managers[me := w.managers[me].(prolongId := 0)]
      && r.calls == w.calls && r.active == w.active && r.events == w.events
    ensures !reply.Done? ==> r == w
  {
    if reply.Done? then Put(w, me, w.managers[me].(prolongId := 0)) else w
  }

  /** A web-view result was sent for `queryId`: the panel showing that query
      closes the session. */
  function ResultSent(w: World, me: InstanceId, queryId: nat): (r: World)
    requires me in w.managers
    ensures var m := w.managers[me];
      m.panel.Some? && m.panel.value.queryId == queryId ==>
        && me !in r.active && me in r.managers && r.managers[me].panel.None? && r.managers[me].bot.None?
        && r.calls == w.calls - Slots(m.requestId, m.prolongId)
        && r.prompts == w.prompts && r.events == w.events
    ensures var p := w.managers[me].panel;
      !(p.Some? && p.value.queryId == queryId) ==> r == w
  {
    var p := w.managers[me].panel;
    if p.Some? && p.value.queryId == queryId then Cancel(w, me) else w
  }

  /** The panel's `sendData`: only in the bot's own chat and only for a panel
      opened without a query id, the data goes out and the session ends. */
  function SendData(w: World, me: InstanceId, data: string): (r: Step)
    requires me in w.managers
    ensures var m := w.managers[me];
      m.panel.None? || !PeerIsBot(m.peer, m.bot) || m.panel.value.queryId != 0 ==> r == Next(w)
    ensures var m := w.managers[me];
      m.panel.Some? && m.peer.Some? && m.bot.Some? && m.peer.value == m.bot.value.id
      && m.panel.value.queryId == 0 ==>
        && r.Next?
        && r.w.calls == w.calls[Fresh(w) := Call(me, SendWebViewData(m.bot.value.id, m.panel.value.buttonText, data))]
                        - Slots(m.requestId, m.prolongId)
        && me !in r.w.active && me in r.w.managers && r.w.managers[me].panel.None? && r.w.managers[me].peer.None?
        && r.w.events == w.events && r.w.prompts == w.prompts
  {
    var m := w.managers[me];
    if m.panel.None? || !PeerIsBot(m.peer, m.bot) || m.panel.value.queryId != 0 then Next(w)
    else if m.bot.None? then Abort(TargetMissing)
    else Next(Cancel(Issue(w, me, SendWebViewData(m.bot.value.id, m.panel.value.buttonText, data)), me))
  }

  // ------------------------------------------------------------ prompts

  /** Accepting the consent box of `confirmOpen`: the box closes, the CURRENT
      bot (not the one the box was raised for) is marked trusted, and the
      continuation runs. */
  function ConfirmConsent(w: World, pid: Handle): (r: Step)
    requires pid in w.prompts && w.prompts[pid].AllowWebView? && w.prompts[pid].owner in w.managers
    ensures var me := w.prompts[pid].owner;
      var m := w.managers[me];
      var cont := w.prompts[pid].cont;
      && (m.bot.None? ==> r == Abort(TargetMissing))
      && (m.bot.Some? ==> (r.Abort? <==> cont.RequestWithButton? && m.peer.None?))
      && (m.bot.Some? && r.Next? ==>
            && r.w.env.trusted == w.env.trusted + {m.bot.value.id}
            && r.w.prompts == w.prompts - {pid}
            && Fresh(w) in r.w.calls && r.w.calls[Fresh(w)].owner == me
            && r.w.calls - {Fresh(w)} == w.calls - {Fresh(w)}
            && me in r.w.managers && r.w.managers[me].requestId == Fresh(w))
  {
    var me := w.prompts[pid].owner;
    var m := w.managers[me];
    if m.bot.None? then Abort(TargetMissing)
    else
      var w0 := w.(prompts := w.prompts - {pid});
      RunContinuation(w0.(env := w0.env.(trusted := w0.env.trusted + {m.bot.value.id})), me, w.prompts[pid].cont)
  }

  /** Accepting the add-to-menu box: it closes and one enabling toggle goes
      out, whose success opens the bot (when asked to) and shows the "added"
      toast. No manager changes. */
  function ConfirmAddToMenu(w: World, pid: Handle): (r: Step)
    requires pid in w.prompts && w.prompts[pid].AddToMenu?
    ensures var p := w.prompts[pid];
      && r.Next?
      && r.w.calls == w.calls[Fresh(w) := Call(p.owner, ToggleBotInAttachMenu(p.bot.id, true, OpenThenShowAdded(p.open)))]
      && r.w.prompts == w.prompts - {pid}
      && r.w.managers == w.managers && r.w.env == w.env && r.w.active == w.active
  {
    var p := w.prompts[pid];
    Next(Issue(w.(prompts := w.prompts - {pid}), p.owner, ToggleBotInAttachMenu(p.bot.id, true, OpenThenShowAdded(p.open))))
  }

  /** The user accepts a prompt, whichever kind it is. */
  function Confirm(w: World, pid: Handle): (r: Step)
    requires pid in w.prompts && w.prompts[pid].owner in w.managers
    ensures w.prompts[pid].AllowWebView? ==> r == ConfirmConsent(w, pid)
    ensures w.prompts[pid].AddToMenu? ==> r == ConfirmAddToMenu(w, pid)
  {
    if w.prompts[pid].AllowWebView? then ConfirmConsent(w, pid) else ConfirmAddToMenu(w, pid)
  }

  /** The user dismisses a prompt: it closes and nothing else happens. */
  function Dismiss(w: World, pid: Handle): (r: World)
    requires pid in w.prompts
    ensures r.prompts == w.prompts - {pid} && pid !in r.prompts
    ensures r.calls == w.calls && r.managers == w.managers && r.env == w.env
  {
    w.(prompts := w.prompts - {pid})
  }

  // ------------------------------------------------------------ replies

  /** A live call delivers its reply to its owner's callbacks. */
  function Deliver(w: World, h: Handle, reply: Reply): (r: Step)
    requires h in w.calls && w.calls[h].owner in w.managers
    requires Fits(w.calls[h].request, reply)
  {
    var c := w.calls[h];
    var me := c.owner;
    var w0 := w.(calls := w.calls - {h});
    match c.request
    case RequestWebView(_, _, _, _, _, _) => OnWebViewReply(w0, me, c.request, reply)
    case RequestSimpleWebView(_, _, _, _) => OnWebViewReply(w0, me, c.request, reply)
    case ResolveUsername(username) => OnResolveReply(w0, me, username, reply)
    case GetAttachMenuBots(_) => Next(OnBotsReply(w0, me, reply))
    case GetAttachMenuBot(_) => OnMenuBotReply(w0, me, reply)
    case ToggleBotInAttachMenu(_, _, onDone) => OnToggleReply(w0, me, onDone, reply)
    case ProlongWebView(_, _, _) => Next(OnProlongReply(w0, me, reply))
    case SendWebViewData(_, _, _) => Next(w0)
  }
}
